=== FILE: README.md ===
# private_netdisk: access policy and file presentation, in Dafny

This project models the core of private_netdisk. It is a small file-sharing
service: a FastAPI backend plus React pages.

Users upload files as public or private. A private file carries a download
code. Its uploader may read it freely; anyone else must present the code. The
model covers:

- **Session and access policy** (`Auth`, backend/auth.py):
  - the single-active-token rule and token expiry;
  - the three permission checks on a file: content access, sharing and management.
- **Server endpoints** (`Server`, backend/main.py):
  - download-code generation and assignment;
  - the extension allowlist;
  - the listing, which hides other users' codes and puts the newest first;
  - the 404/403 ordering of download and delete;
  - the store invariant "private ⇔ non-empty code".
- **Percent-decoding** (`Percent`): `decodeURIComponent`, per section 2.1 of RFC 3986 and section 4 of RFC 3629, with its inverse `encodeURIComponent`.
- **Filename extraction** (`Disposition`): three Content-Disposition resolvers. They are fileUtils.js `extractFilename`, HomePage's `downloadFile` and PreviewPage's `handleDownload`. The JavaScript regular expressions are modelled exactly: leftmost match, alternatives in order, greedy runs, ASCII `/i`. Lemmas show where the three resolvers agree and where they differ.
- **Content types** (`Content`):
  - the four type tables: `isFilePreviewable`, FilePreview, HomePage and PreviewPage;
  - the `<!DOCTYPE html>` sniff;
  - the UTF-8 → GBK text retry.
- **Requests** (`Requests`, api.js and fileUtils.js): URL, query, bearer header and upload form fields.
- **Pages and components**:
  - the shared preview component (`PreviewComponent`);
  - the list page (`HomePage`): its buttons, search filter, share link, code dialog, download and preview flows;
  - the share page (`PreviewPage`): its code state machine.
- **Cross-component journeys** (`Journeys`).

Strings are sequences of Unicode scalar values. Users are identified by user
name, which the user table keeps unique. Time is an integer count of
microseconds.

Everything not visible in the source is a parameter:
- JWT signing and verification are functions `encode` and `decode`.
- The random digits of a generated code are a sequence `picks`.
- The text decoders behind `FileReader.readAsText` are a function from encoding to an optional string.
- Whether deleting the stored bytes succeeded is a boolean.

## Model

| member | source | states |
|---|---|---|
| Auth.Expiry | backend/auth.py:29-33 | a non-zero delta is added to now; no delta, or a zero one, which is falsy, gives now + 30 minutes; the expiry is after now for non-negative deltas |
| Auth.CreateAccessToken | backend/auth.py:27-40 | the token encodes the subject and expiry, becomes the user's only active token, and every other user's session is unchanged |
| Auth.LogoutUser | backend/auth.py:50-52 | no token is the user's active token afterwards; other users are unchanged |
| Auth.GetCurrentUser | backend/auth.py:54-71 | authenticated exactly when the token decodes, has a subject, and is that user's stored active token; every other case is the same 401 |
| Auth.EarlierTokenRejected | backend/auth.py:37 | after a new token is issued, any other token fails to authenticate that user |
| Auth.IssuedTokenAccepted | backend/auth.py:27-40 | a freshly issued token whose subject is its user authenticates that user |
| Auth.LoggedOutUserRejected | backend/auth.py:50-52 | after logout no token authenticates the user |
| Auth.CheckFileAccess | backend/auth.py:73-100 | public files are open to everyone, anonymous callers included; private files are open to the uploader; anyone else is let in exactly when the code is non-empty and equals the stored one; every refusal is a 403 |
| Auth.CanShareFile | backend/auth.py:102-118 | public files can be shared by any signed-in user and by no anonymous caller; private files only by the uploader |
| Auth.CheckFileManagement | backend/auth.py:120-143 | no user gives 401 before ownership is looked at; a non-owner gets 403; the owner is allowed |
| Auth.ManagementImpliesShareAndAccess | backend/auth.py:86-143 | whoever may manage a file may also share it and read it with any code |
| Server.GenerateDownloadCode | backend/main.py:45-46 | the result is exactly four decimal digits |
| Server.EveryFourDigitCodeGenerable | backend/main.py:45-46 | every four-digit string is a possible generated code |
| Server.SplitExt | backend/main.py:85 | `os.path.splitext`: root and extension rebuild the path; a non-empty extension starts with its only dot and follows a non-dot character of the last path component; the extension is empty only when every dot of the last component has only dots before it there |
| Server.SplitExtFindsExtension | backend/main.py:85 | a root ending in an ordinary character followed by a dot-led suffix without dots or slashes splits into exactly that root and suffix |
| Server.AllowedNamesPass | backend/main.py:84-87 | every allowed extension behind such a root is the extension the allowlist check sees, so the check can pass |
| Server.AssignedCode | backend/main.py:96-99 | a code is stored exactly for a private file: the given one if non-empty, else a generated four-digit one |
| Server.Upload | backend/main.py:75-114 | a 400, and nothing stored, exactly when the lower-cased extension is not allowed; otherwise exactly one row is appended with the caller as owner, and the response repeats its code, which is present only for a private file |
| Server.UploadPreservesInvariant | backend/main.py:96-112 | the store invariant survives an upload: private ⇔ non-empty code, ids distinct and below the next id |
| Server.CheckedUpload | backend/models.py:22 | corrected upload: a private upload with a given code of any length but four is a 400; every private file then has a four-character code |
| Server.SortNewestFirst | backend/main.py:119 | the result is a permutation of the input, ordered by upload time, newest first |
| Server.ListFiles | backend/main.py:117-130 | every row appears exactly once (multiset equality with the rows' views), newest first, and no other user's code appears |
| Server.OwnerSeesCodeIffPrivate | backend/main.py:127 | under the invariant the uploader sees a non-empty code on an entry exactly when it is private |
| Server.FindFile | backend/main.py:140 | none exactly when no row has the id; otherwise a stored row with that id |
| Server.DownloadFile | backend/main.py:133-152 | 404 exactly when the id is unknown, before any access check; otherwise the file is served exactly when `check_file_access_permission` allows the caller, else 403 |
| Server.DeleteFile | backend/main.py:163-188 | 404 exactly when absent; then deleted exactly when the management check allows, else 403; a deletion removes that one row and keeps the rest |
| Server.DeleteIgnoresRemovalFailure | backend/main.py:178-186 | the outcome does not depend on whether removing the stored bytes failed |
| Server.DeleteRemovesTheFile | backend/main.py:169-188 | after a deletion under the invariant no row has the id and the invariant still holds |
| Server.DownloadEndpoint | backend/main.py:133-139 | a missing or rejected token is a 401 before the file is looked up; otherwise the download decision for the authenticated user |
| Percent.PercentDecode | frontend/src/utils/fileUtils.js:50 | `decodeURIComponent` (failure is none): a decoded string is never longer than its input and is non-empty for a non-empty input; text without `%` decodes to itself |
| Percent.DecodeEncode | frontend/src/utils/fileUtils.js:56 | decoding the `encodeURIComponent` form of any string gives the string back |
| Percent.EncodedAlphabet | frontend/src/pages/HomePage.jsx:292 | `encodeURIComponent` output contains only unreserved characters and `%`, so no `;`, `"` or `=` |
| Percent.IncompleteEscapeFails | frontend/src/utils/fileUtils.js:46-60 | a `%` anywhere that does not begin `%` and two hex digits makes decoding fail, which `extractFilename` turns into the default |
| Percent.DecodeAppend | frontend/src/utils/fileUtils.js:50 | after a prefix that decodes, the whole decodes exactly when the rest does, to the two decodings joined |
| Percent.BadLeadOctetFails | frontend/src/utils/fileUtils.js:50 | after any prefix that decodes, an escape of a continuation octet or of 0xF8–0xFF makes decoding fail |
| Percent.Utf8RoundTrip | frontend/src/utils/fileUtils.js:50 | every scalar value above U+007F encodes to a 2–4 octet UTF-8 sequence whose lead octet announces its length and which decodes back to the value |
| Disposition.Match | frontend/src/pages/PreviewPage.jsx:210 | a regex search finds nothing exactly when no position matches, and otherwise a non-empty capture |
| Disposition.MatchIsLeftmost | frontend/src/utils/fileUtils.js:54 | a match with no match before it is the one the search reports |
| Disposition.ExtractFilename | frontend/src/utils/fileUtils.js:43-63 | an absent or empty header gives the default; a found extended value gives its decoding, or the default when it does not decode, and the plain parameter is then never looked at; without an extended value the plain value's decoding, or the default when it does not decode; with neither, the default |
| Disposition.HomePageFilename | frontend/src/pages/HomePage.jsx:183-222 | a decodable extended value wins; otherwise the plain value's decoding, or the raw plain value when it does not decode; with no usable parameter or no header, the listed name, else `unknown_file`; an empty result only comes from an empty listed name |
| Disposition.PreviewPageFilename | frontend/src/pages/PreviewPage.jsx:206-214 | `download` without a header or without a match; otherwise the decoding of the leftmost parameter's value, so it fails exactly when that value does not decode |
| Disposition.ExtendedRoundTrip | frontend/src/utils/fileUtils.js:48-50 | a header with `filename*=UTF-8''` and an encoded name yields that name in all three resolvers |
| Disposition.QuotedRoundTrip | frontend/src/utils/fileUtils.js:54-56 | a header with a quoted encoded name yields that name in all three resolvers |
| Disposition.LeftmostParameterWins | frontend/src/pages/PreviewPage.jsx:210 | with a quoted parameter before an extended one, fileUtils and HomePage take the extended name, PreviewPage the leftmost, quoted one |
| Disposition.LowerCaseCharsetIgnored | frontend/src/pages/PreviewPage.jsx:210 | with the charset written `utf-8`, fileUtils and HomePage decode the name, but PreviewPage's case-sensitive regex matches nothing and saves `download` |
| Disposition.UndecodableExtendedValue | frontend/src/pages/HomePage.jsx:188-205 | an undecodable extended value gives fileUtils its default, lets HomePage fall through to the quoted name, and fails PreviewPage |
| Disposition.AgreementWithoutExtended | frontend/src/utils/fileUtils.js:54-56 | without any extended parameter and with a decodable plain value, the three resolvers agree |
| Disposition.HomePageExtendsFileUtils | frontend/src/pages/HomePage.jsx:186-215 | whenever fileUtils finds a name other than its default, HomePage finds the same name |
| Disposition.EncodedChineseName | frontend/src/utils/fileUtils.js:48-50 | the header for the name 文档.pdf, sent as `%E6%96%87%E6%A1%A3.pdf`, resolves to 文档.pdf |
| Content.FilePreviewRoute | frontend/src/components/FilePreview.jsx:59-68 | exactly `text/html` is read as text, an `image/` prefix is an image, exactly `application/pdf` is a PDF; everything else, a missing type included, is unsupported |
| Content.HomePageRoute | frontend/src/pages/HomePage.jsx:279-355 | `text/plain` or `text/html` is read as text, `image/` is an image, `application/pdf` is a PDF; only a missing type fails |
| Content.PreviewPageRoute | frontend/src/pages/PreviewPage.jsx:122-162 | only `text/plain` is read as text; `image/` is an image, `application/pdf` opens a window; a missing type fails |
| Content.TextTablesDisagree | frontend/src/utils/fileUtils.js:66-68 | `isFilePreviewable` lists `text/plain`, which FilePreview rejects, and omits `text/html`, which FilePreview reads; PreviewPage shows nothing for `text/html` |
| Content.HomePageCoversFilePreview | frontend/src/pages/HomePage.jsx:279-355 | every type FilePreview supports is routed the same way by HomePage |
| Content.PreviewableMediaAgree | frontend/src/utils/fileUtils.js:66-68 | the previewable non-text types route to an image or a PDF identically on all three screens |
| Content.SniffSkipsOnlyLeadingWhitespace | frontend/src/components/FilePreview.jsx:87 | the trimmed text starts with `<!DOCTYPE html>` exactly when the text does after its leading whitespace |
| Content.ReadWithRetry | frontend/src/components/FilePreview.jsx:75-84 | one or two decodes, UTF-8 first; GBK is tried exactly when the UTF-8 text contains U+FFFD, U+FFFE or U+FFFF; a failed GBK decode keeps the UTF-8 text |
| Content.FilePreviewText | frontend/src/components/FilePreview.jsx:72-131 | a failed UTF-8 read is a read failure; otherwise the kept text is framed as HTML exactly when it passes the sniff |
| Content.PdfModalTitle | frontend/src/components/FilePreview.jsx:153-156 | the text-as-PDF title exactly when the listed type is `text/plain` |
| Requests.WithCode | frontend/src/services/api.js:93-100 | the code is appended verbatim after `?download_code=` exactly when it is truthy |
| Requests.TargetRoundTrip | frontend/src/services/api.js:103-130 | reading the query back from a built target gives the path and the truthy code |
| Requests.Intercept | frontend/src/services/api.js:10-19 | `Authorization: Bearer <token>` is set exactly when the token is truthy; other headers are untouched |
| Requests.BearerRoundTrip | frontend/src/services/api.js:13-15 | the token read back from intercepted headers is the truthy token |
| Requests.ApiFileRequest | frontend/src/services/api.js:93-130 | the info, content and preview targets carry the path and the truthy code; the bearer token is the truthy one; no other header is set |
| Requests.UtilsRequestsMatchApi | frontend/src/utils/fileUtils.js:71-97 | fileUtils' hand-built info and download requests have the API client's targets and bearer rule; the download request adds `Accept-Language` |
| Requests.UtilsSavedName | frontend/src/utils/fileUtils.js:108-111 | a truthy caller-supplied name wins; otherwise the header's name, else `download`; never empty |
| Requests.UploadFields | frontend/src/services/api.js:66-84 | `is_private=true` exactly for a private upload; the code whenever it is truthy, even for a public upload |
| Requests.UploadFieldsRoundTrip | backend/main.py:78-79 | the server reads back the visibility, and the code exactly when it was truthy |
| PreviewComponent.PreviewRequest | frontend/src/components/FilePreview.jsx:11-18 | the preview request is the API client's preview request |
| PreviewComponent.ErrorOutcome | frontend/src/components/FilePreview.jsx:42-54 | 403 is the only "need code" result; 404 is the not-found message; 400 shows the unsupported-type text; anything else shows the generic prefix with the error's message or "unknown error". The Blob request leaves no server detail to show |
| PreviewComponent.PreviewFile | frontend/src/components/FilePreview.jsx:8-55 | the result is `true` exactly for a supported type; what is shown as HTML passes the sniff and plain text fails it; images are shown, and PDFs with the title the listed type selects; a success shows nothing exactly for an HTML response the reader cannot read; an error reply goes through `ErrorOutcome`; any other delivered type fails with the generic prefix and the unsupported-type message |
| PreviewComponent.ReadFailureStillSucceeds | frontend/src/components/FilePreview.jsx:127-130 | an unreadable HTML response still resolves to `true`, with only a message |
| PreviewComponent.PlainTextIsUnsupported | frontend/src/components/FilePreview.jsx:66-67 | a `text/plain` response fails as unsupported, through the generic-failure message, although `isFilePreviewable` lists it |
| PreviewComponent.HtmlShownIffSniffed | frontend/src/components/FilePreview.jsx:86-126 | an HTML response is framed exactly when the kept text passes the sniff, otherwise shown as text |
| HomePage.HomeUploadFields | frontend/src/pages/HomePage.jsx:114-120 | `is_private=true` exactly for a private upload; the typed code only while private and non-empty |
| HomePage.HomeUploadFieldsRoundTrip | frontend/src/pages/HomePage.jsx:117-120 | the server reads back the switch, and the code only for a private upload with a typed code |
| HomePage.Search | frontend/src/pages/HomePage.jsx:641-650 | a row is kept exactly when it matches the search text |
| HomePage.EmptySearchKeepsAll | frontend/src/pages/HomePage.jsx:642 | an empty search keeps the whole listing in order |
| HomePage.SearchDistributes | frontend/src/pages/HomePage.jsx:641-650 | filtering keeps the listing's order: a concatenation filters part by part |
| HomePage.SearchIdempotent | frontend/src/pages/HomePage.jsx:641-650 | filtering the filtered table again changes nothing |
| HomePage.ButtonsFollowServerPolicy | frontend/src/pages/HomePage.jsx:475-503 | the share button is enabled exactly when `can_share_file` allows, and delete exactly when the management check allows; a code in the share dialog is the stored code |
| HomePage.PreviewButtonAlwaysDisabled | frontend/src/pages/HomePage.jsx:450-462 | the listing never sets `can_preview`, so no row's preview button is enabled |
| HomePage.ShareLink | frontend/src/pages/HomePage.jsx:524-535 | the link is the origin and `/preview/` followed by digits only, so it has no code |
| HomePage.ShareLinkInjective | frontend/src/pages/HomePage.jsx:530 | different files get different links |
| HomePage.HandleDownload | frontend/src/pages/HomePage.jsx:137-148 | downloads at once with no code exactly for a public entry or one carrying a code; otherwise opens the dialog in download mode with no request |
| HomePage.HandlePreview | frontend/src/pages/HomePage.jsx:242-260 | the typed code wins over the listed one; a private file with neither opens the dialog in preview mode and sends nothing; a public file with neither is requested without a code |
| HomePage.Submit | frontend/src/pages/HomePage.jsx:368-381 | an empty code changes nothing; otherwise exactly one preview or download with the typed code, by mode, and the dialog closes in download mode |
| HomePage.Cancel | frontend/src/pages/HomePage.jsx:662-666 | closes the dialog and resets the mode, with no request |
| HomePage.DialogForwardsTypedCode | frontend/src/pages/HomePage.jsx:144-147 | the code typed into the dialog opened by the download button reaches the download flow unchanged |
| HomePage.ListedName | frontend/src/pages/HomePage.jsx:220-221 | the name of an entry with the id, or none exactly when no entry has it |
| HomePage.DownloadFlow | frontend/src/pages/HomePage.jsx:151-239 | the info request goes first; the content request, with the same code and headers, only after it succeeded; a file is saved only when both succeed; a failed info request shows the server's detail or the fixed text, a failed content request the fixed text; the saved name is the one `Disposition.HomePageFilename` resolves from the response's header and the listed name, so without a header it is the listed name, else `unknown_file` |
| HomePage.DownloadSavesHeaderName | frontend/src/pages/HomePage.jsx:183-199 | a response naming the file in an encoded extended parameter is saved under exactly that name, whatever the listing says |
| HomePage.HomePreviewOutcome | frontend/src/pages/HomePage.jsx:242-365 | the fixed failure message exactly for an error or a missing type; a text type shows something exactly when the reader succeeds, as HTML exactly when the type is `text/html` or the text passes the sniff, otherwise as text; images and PDFs are shown by type; other types show nothing |
| HomePage.SniffedPlainTextIsFramed | frontend/src/pages/HomePage.jsx:284 | plain text that starts with the doctype is framed as HTML |
| HomePage.HtmlTypeAlwaysFramed | frontend/src/pages/HomePage.jsx:284 | an HTML response is framed whatever its content |
| PreviewPage.Init | frontend/src/pages/PreviewPage.jsx:12-20 | the remembered code is the query's code, else empty; the dialog is closed |
| PreviewPage.PageRequest | frontend/src/pages/PreviewPage.jsx:97-115 | the page's requests use the API targets with the truthy code and no headers at all |
| PreviewPage.InfoRequest | frontend/src/pages/PreviewPage.jsx:74 | the info request never carries a code |
| PreviewPage.InfoError | frontend/src/pages/PreviewPage.jsx:81-87 | 404 gives the not-found message; any other failure the generic one |
| PreviewPage.Attempt | frontend/src/pages/PreviewPage.jsx:97-235 | the typed, else the remembered, code is sent and remembered before the answer; 403 reopens the dialog with the mode unchanged; other errors show a message; a preview answer shows the preview-failure message exactly when it has no Content-Type, and no message otherwise; a download is saved under the resolved name, and an undecodable name fails it |
| PreviewPage.Click | frontend/src/pages/PreviewPage.jsx:282-306 | sets the mode; opens the dialog without a request exactly when the file is known to be private and no code is remembered |
| PreviewPage.SubmitCode | frontend/src/pages/PreviewPage.jsx:238-248 | a request goes out exactly for a four-character code, in the dialog's mode; the dialog ends open only after a 403 |
| PreviewPage.CancelDialog | frontend/src/pages/PreviewPage.jsx:359 | closes the dialog, keeping mode and code |
| PreviewPage.ClearCode | frontend/src/pages/PreviewPage.jsx:314-320 | forgets the remembered code |
| PreviewPage.QueryCodeSkipsDialog | frontend/src/pages/PreviewPage.jsx:20 | a link with a code requests with it at once, even for a private file |
| PreviewPage.RefusedCodeIsKept | frontend/src/pages/PreviewPage.jsx:103-108 | a code the server refused stays remembered and is sent again by the next button |
| PreviewPage.ClearedCodeAsksAgain | frontend/src/pages/PreviewPage.jsx:287-289 | after clearing, a button on a private file opens the dialog again |
| Journeys.DirectDownloadIsServed | frontend/src/pages/HomePage.jsx:139 | the list page downloads without a code exactly when the server serves the caller without one |
| Journeys.DialogCodeUnlocksDownload | frontend/src/pages/HomePage.jsx:144-147 | for another user's private file the dialog opens, and the stored code typed into it is served |
| Journeys.SharePageIsUnauthenticated | frontend/src/pages/PreviewPage.jsx:110-114 | the share page sends no token, so the download endpoint answers 401 to every one of its requests |
| Journeys.FormUploadStoresCode | backend/main.py:96-108 | an upload from the form stores the typed code of any length, a generated one, or none, as the switch and input say |
| Journeys.PublicUploadDropsCode | backend/main.py:96-99 | a public upload through the API client sends its code, and no code is stored |
| Journeys.ShortCodeLocksOutSharePage | frontend/src/pages/PreviewPage.jsx:369-372 | as written, a two-character code passes the form and is stored, and then no code the share dialog accepts opens the file for anyone else |
| Journeys.CheckedUploadCodesFitShareDialog | frontend/src/pages/HomePage.jsx:595-601 | with the corrected upload, every private file's code is accepted by the share page's dialog and passes the access check for every other signed-in user (the share page itself sends no token) |

## Left out

- Rendering, antd modals, object URLs and their 100 ms revoke timers, the loading flags and the success toasts of the list page: these are display and timing, not decisions.
- The clipboard helpers in HomePage.jsx and PreviewPage.jsx, and the one in fileUtils.js: browser plumbing.
- `formatFileSize` in fileUtils.js: floating-point logarithms and rounding.
- JWT signing and verification and bcrypt hashing: opaque parameters. A token whose `exp` has passed is one that `decode` rejects.
- The UTF-8 and GBK decoders: uninterpreted. Only the retry rule is modelled.
- Transport, routing, CORS, the database and the file system:
  - the store is a sequence of rows;
  - writing the uploaded bytes is not modelled;
  - two uploads with the same file name overwrite the same stored file, which is not modelled.
- Registration and login are not modelled. backend/main.py:61 and 71 call `create_access_token` with only `data`, which does not fit the signature at backend/auth.py:27. The model uses auth.py's version (`Auth.CreateAccessToken`).
- backend/main.py has no `/info`, `/preview` or `/share` endpoint, although the client requests all three.
  - Only the answers the client reacts to are modelled.
  - The list page's download flow requests `/info` first (`HomePage.DownloadFlow`), so against this backend it stops at that failure.
- Id reuse: `Server.Store` hands out ids from a counter that only grows, so the model never reuses the id of a deleted row. Whether the database reuses the id of a deleted newest row depends on its engine, which is not part of this model.
- backend/main.py never calls `check_file_access_permission`. `Server.DownloadFile` states that its inline check coincides with it.
- `download_file` does not increment `downloads`, and it serves every file as `application/octet-stream`. Under that media type the HomePage route shows nothing, FilePreview reports the type unsupported, and PreviewPage shows nothing.
- Query-string decoding on the server. The code is appended unescaped, so a code with `&`, `#`, `%` or `+` reaches the server altered. The model stops at the target string (`Requests.ReadTarget`) and does not model URL decoding.
- FastAPI's boolean form parsing: only the value `true` is modelled as true (`Requests.ServerUploadParameters`); `1`, `on` and `yes` are not.
- `Text.Lower` lower-cases ASCII letters only. JavaScript's `toLowerCase` in the search filter and Python's `lower()` of the extension cover all of Unicode. The allowlist has no letter that a non-ASCII character lower-cases to.
- The four-character rule of the share page's dialog (`PreviewPage.DialogAccepts`): antd's `len` rule counts code points, while `maxLength` counts UTF-16 units. The model counts characters for both.
- JavaScript's UTF-16 strings are modelled as sequences of scalar values. The regular expressions only name ASCII characters, so matching is the same.
- The list page's preview button is disabled on every row (`HomePage.PreviewButtonAlwaysDisabled`), so `HomePage.HandlePreview` is reached only through the code dialog.
- Starlette writes the extended parameter as `filename*=utf-8''…` in lower case for non-ASCII names. PreviewPage's case-sensitive regex then misses it (`Disposition.LowerCaseCharsetIgnored`). The framework is not part of this model.

## Findings

| source | as written | input that shows it | evidently intended | confidence | as-written member | corrected member |
|---|---|---|---|---|---|---|
| backend/main.py:96-97 | a private upload stores any non-empty code. The list page's code input caps the length at four with no minimum (frontend/src/pages/HomePage.jsx:595-601). The share page's dialog accepts only exactly four characters (frontend/src/pages/PreviewPage.jsx:369-372). | upload a private file with code `12` from the list page; a recipient opening the share link cannot submit `12` | download codes are four characters, as the column `String(4)` says (backend/models.py:22), as the generated codes are, and as the input's placeholder asks; a private upload with a code of any other length is refused | high; not executed | Journeys.ShortCodeLocksOutSharePage | Server.CheckedUpload, Journeys.CheckedUploadCodesFitShareDialog |

=== FILE: auth.dfy ===
/**
  Server-side access policy (backend/auth.py): the single-active-token
  session rule, the expiry arithmetic of an issued token, and the three
  permission checks on a file (content access, sharing, management).
  JWT signing and verification are opaque: `encode` and `decode` are
  parameters, and `decode` returning `None` stands for every JWTError.
 */
module Auth {
  import opened Wrappers
  import opened Text
  import opened Records

  type Token = string

  /** The `active_token` column of every registered user, keyed by user name. */
  type Sessions = map<Username, Option<Token>>

  /** The claims of a token the model looks at: the subject and the `exp` claim (section 4.1.4 of RFC 7519). */
  datatype Claims = Claims(sub: Option<string>, exp: int)

  /** Default token lifetime in minutes. */
  const AccessTokenExpireMinutes: nat := 30

  /** Time is counted in microseconds, the resolution of Python's `datetime`. */
  const MicrosPerMinute: nat := 60_000_000

  /**
    Expiry instant of a new token. A `timedelta` is truthy only when it is
    non-zero, so an explicit zero delta also falls back to the default.
   */
  function Expiry(now: int, delta: Option<int>): (exp: int)
    ensures delta.Some? && delta.value != 0 ==> exp == now + delta.value
    ensures (delta.None? || delta.value == 0) ==> exp == now + AccessTokenExpireMinutes * MicrosPerMinute
    ensures (delta.None? || delta.value >= 0) ==> exp > now
  {
    if delta.Some? && delta.value != 0 then now + delta.value
    else now + AccessTokenExpireMinutes * MicrosPerMinute
  }

  /** `t` is the active token stored for `user`. */
  predicate IsActiveToken(sessions: Sessions, user: Username, t: Token) {
    user in sessions && sessions[user] == Some(t)
  }

  /**
    Issues a token for `user` carrying the subject `sub` and the computed
    expiry, and records it as that user's only active token.
   */
  function CreateAccessToken(sessions: Sessions, user: Username, sub: Option<string>,
                             now: int, delta: Option<int>, encode: Claims -> Token): (result: (Token, Sessions))
    requires user in sessions
    ensures result.0 == encode(Claims(sub, Expiry(now, delta)))
    ensures IsActiveToken(result.1, user, result.0)
    ensures result.1.Keys == sessions.Keys
    ensures forall u :: u in sessions && u != user ==> result.1[u] == sessions[u]
  {
    var token := encode(Claims(sub, Expiry(now, delta)));
    (token, sessions[user := Some(token)])
  }

  /** Clears the user's active token. */
  function LogoutUser(sessions: Sessions, user: Username): (sessions': Sessions)
    requires user in sessions
    ensures sessions'.Keys == sessions.Keys
    ensures forall t :: !IsActiveToken(sessions', user, t)
    ensures forall u :: u in sessions && u != user ==> sessions'[u] == sessions[u]
  {
    sessions[user := None]
  }

  datatype AuthResult = Authenticated(user: Username) | Unauthorized

  /**
    Resolves a bearer token to its user; every failure is the same 401: an
    undecodable token, a token without `sub`, an unknown user, or a token
    that is not the user's active one.
   */
  function GetCurrentUser(sessions: Sessions, token: Token, decode: Token -> Option<Claims>): (r: AuthResult)
    ensures r.Authenticated? <==>
      decode(token).Some? && decode(token).value.sub.Some?
      && IsActiveToken(sessions, decode(token).value.sub.value, token)
    ensures r.Authenticated? ==> decode(token).value.sub == Some(r.user)
  {
    match decode(token)
    case None => Unauthorized
    case Some(claims) =>
      match claims.sub
      case None => Unauthorized
      case Some(name) =>
        if name !in sessions || sessions[name] != Some(token) then Unauthorized
        else Authenticated(name)
  }

  /** After a new token is issued, no other token authenticates that user. */
  lemma EarlierTokenRejected(sessions: Sessions, user: Username, sub: Option<string>, now: int,
                             delta: Option<int>, encode: Claims -> Token,
                             decode: Token -> Option<Claims>, earlier: Token)
    requires user in sessions
    requires earlier != CreateAccessToken(sessions, user, sub, now, delta, encode).0
    ensures GetCurrentUser(CreateAccessToken(sessions, user, sub, now, delta, encode).1, earlier, decode)
            != Authenticated(user)
  {
  }

  /** A freshly issued token whose subject is its owner authenticates that owner. */
  lemma IssuedTokenAccepted(sessions: Sessions, user: Username, now: int, delta: Option<int>,
                            encode: Claims -> Token, decode: Token -> Option<Claims>)
    requires user in sessions
    requires var t := CreateAccessToken(sessions, user, Some(user), now, delta, encode).0;
             decode(t) == Some(Claims(Some(user), Expiry(now, delta)))
    ensures var (t, s') := CreateAccessToken(sessions, user, Some(user), now, delta, encode);
            GetCurrentUser(s', t, decode) == Authenticated(user)
  {
  }

  /** After logout no token authenticates the user. */
  lemma LoggedOutUserRejected(sessions: Sessions, user: Username, token: Token, decode: Token -> Option<Claims>)
    requires user in sessions
    ensures GetCurrentUser(LogoutUser(sessions, user), token, decode) != Authenticated(user)
  {
  }

  datatype Permission = Allowed | Denied(status: nat)

  /** `user and file_info.user_id == user.id`. */
  predicate IsOwner(user: Option<Username>, f: FileRecord) {
    user.Some? && user.value == f.owner
  }

  /**
    Content access (download or preview): a public file is open to everyone,
    a private one to its uploader, and otherwise only with a non-empty code
    equal to the stored one; every refusal is a 403.
   */
  function CheckFileAccess(user: Option<Username>, f: FileRecord, code: Option<string>): (r: Permission)
    ensures !f.isPrivate ==> r == Allowed
    ensures f.isPrivate && IsOwner(user, f) ==> r == Allowed
    ensures f.isPrivate && !IsOwner(user, f) ==>
      (r == Allowed <==> Filled(code) && f.downloadCode == code)
    ensures r != Allowed ==> r == Denied(403)
  {
    if !f.isPrivate then Allowed
    else if IsOwner(user, f) then Allowed
    else if Filled(code) && code == f.downloadCode then Allowed
    else Denied(403)
  }

  /** Sharing: any signed-in user may share a public file; only the uploader a private one. */
  function CanShareFile(user: Option<Username>, f: FileRecord): (r: bool)
    ensures user.None? ==> !r
    ensures !f.isPrivate ==> (r <==> user.Some?)
    ensures f.isPrivate ==> (r <==> IsOwner(user, f))
  {
    if !f.isPrivate then user.Some? else IsOwner(user, f)
  }

  /** Management: no user is a 401 before ownership is looked at; a non-owner is a 403. */
  function CheckFileManagement(user: Option<Username>, f: FileRecord): (r: Permission)
    ensures user.None? ==> r == Denied(401)
    ensures user.Some? ==> (r == Allowed <==> IsOwner(user, f))
    ensures user.Some? && !IsOwner(user, f) ==> r == Denied(403)
  {
    if user.None? then Denied(401)
    else if f.owner != user.value then Denied(403)
    else Allowed
  }

  /** Whoever may manage a file may share it and read it without a code. */
  lemma ManagementImpliesShareAndAccess(user: Option<Username>, f: FileRecord, code: Option<string>)
    requires CheckFileManagement(user, f) == Allowed
    ensures CanShareFile(user, f)
    ensures CheckFileAccess(user, f, code) == Allowed
  {
  }
}

=== FILE: content.dfy ===
/**
  How each client screen presents fetched bytes: the four content-type
  tables (fileUtils.js `isFilePreviewable`, FilePreview.jsx
  `showPreviewModal`, HomePage.jsx `handlePreview`, PreviewPage.jsx
  `handlePreview`), the `<!DOCTYPE html>` sniff that decides between an HTML
  frame and plain text, and FilePreview's UTF-8 then GBK reading retry.
  The text decoders behind `FileReader.readAsText` are a parameter.
 */
module Content {
  import opened Wrappers
  import opened Text

  const TextPlain: string := "text/plain"
  const TextHtml: string := "text/html"
  const ImageJpeg: string := "image/jpeg"
  const ImagePng: string := "image/png"
  const ApplicationPdf: string := "application/pdf"
  const ImagePrefix: string := "image/"

  /** fileUtils.js `isFilePreviewable`: membership in a fixed list; an absent type is not in it. */
  predicate IsFilePreviewable(fileType: Option<string>) {
    fileType.Some? && fileType.value in [TextPlain, ImageJpeg, ImagePng, ApplicationPdf]
  }

  /** None of the named non-image types starts with `image/`. */
  lemma NamedTypesAreNotImages()
    ensures !StartsWith(TextPlain, ImagePrefix) && !StartsWith(TextHtml, ImagePrefix)
    ensures !StartsWith(ApplicationPdf, ImagePrefix)
  {
    assert TextPlain[0] != ImagePrefix[0] && TextHtml[0] != ImagePrefix[0] && ApplicationPdf[0] != ImagePrefix[0];
  }

  /** What a screen does with a response of a given content type. */
  datatype Route = ReadAsText | ShowImage | ShowPdf | ShowNothing

  /**
    FilePreview.jsx `showPreviewModal`; a missing Content-Type is read as the
    empty string. `None` is the "unsupported type" error it throws.
   */
  function FilePreviewRoute(contentType: Option<string>): (r: Option<Route>)
    ensures r == Some(ReadAsText) <==> contentType == Some(TextHtml)
    ensures r == Some(ShowImage) <==> contentType.Some? && StartsWith(contentType.value, ImagePrefix)
    ensures r == Some(ShowPdf) <==> contentType == Some(ApplicationPdf)
    ensures r != Some(ShowNothing)
  {
    NamedTypesAreNotImages();
    var t := contentType.GetOr("");
    if t == TextHtml then Some(ReadAsText)
    else if StartsWith(t, ImagePrefix) then Some(ShowImage)
    else if t == ApplicationPdf then Some(ShowPdf)
    else None
  }

  /**
    HomePage.jsx `handlePreview` after the response: plain text and HTML are
    read as text, images and PDFs are shown, anything else shows nothing.
    `None` is the TypeError of calling `startsWith` on a missing type.
   */
  function HomePageRoute(contentType: Option<string>): (r: Option<Route>)
    ensures r.None? <==> contentType.None?
    ensures r == Some(ReadAsText) <==> contentType == Some(TextPlain) || contentType == Some(TextHtml)
    ensures r == Some(ShowImage) <==> contentType.Some? && StartsWith(contentType.value, ImagePrefix)
    ensures r == Some(ShowPdf) <==> contentType == Some(ApplicationPdf)
  {
    NamedTypesAreNotImages();
    match contentType
    case None => None
    case Some(t) =>
      if t == TextPlain || t == TextHtml then Some(ReadAsText)
      else if StartsWith(t, ImagePrefix) then Some(ShowImage)
      else if t == ApplicationPdf then Some(ShowPdf)
      else Some(ShowNothing)
  }

  /**
    PreviewPage.jsx `handlePreview` after the response: only plain text is
    read, HTML shows nothing, a PDF opens in a new window.
   */
  function PreviewPageRoute(contentType: Option<string>): (r: Option<Route>)
    ensures r.None? <==> contentType.None?
    ensures r == Some(ReadAsText) <==> contentType == Some(TextPlain)
    ensures r == Some(ShowImage) <==> contentType.Some? && StartsWith(contentType.value, ImagePrefix)
    ensures r == Some(ShowPdf) <==> contentType == Some(ApplicationPdf)
  {
    NamedTypesAreNotImages();
    match contentType
    case None => None
    case Some(t) =>
      if t == TextPlain then Some(ReadAsText)
      else if StartsWith(t, ImagePrefix) then Some(ShowImage)
      else if t == ApplicationPdf then Some(ShowPdf)
      else Some(ShowNothing)
  }

  /**
    Where the tables disagree on text: `text/plain` is listed as previewable
    but FilePreview rejects it, and `text/html` is not listed but FilePreview
    and HomePage read it while PreviewPage shows nothing.
   */
  lemma TextTablesDisagree()
    ensures IsFilePreviewable(Some(TextPlain)) && FilePreviewRoute(Some(TextPlain)).None?
    ensures HomePageRoute(Some(TextPlain)) == Some(ReadAsText) && PreviewPageRoute(Some(TextPlain)) == Some(ReadAsText)
    ensures !IsFilePreviewable(Some(TextHtml)) && FilePreviewRoute(Some(TextHtml)) == Some(ReadAsText)
    ensures HomePageRoute(Some(TextHtml)) == Some(ReadAsText) && PreviewPageRoute(Some(TextHtml)) == Some(ShowNothing)
  {
    NamedTypesAreNotImages();
  }

  /** HomePage handles every type FilePreview handles, the same way. */
  lemma HomePageCoversFilePreview(contentType: Option<string>)
    ensures FilePreviewRoute(contentType).Some? ==> HomePageRoute(contentType) == FilePreviewRoute(contentType)
  {
  }

  /** For the listed types other than plain text, the three screens agree and show something. */
  lemma PreviewableMediaAgree(fileType: Option<string>)
    requires IsFilePreviewable(fileType) && fileType != Some(TextPlain)
    ensures FilePreviewRoute(fileType) == HomePageRoute(fileType) == PreviewPageRoute(fileType)
    ensures FilePreviewRoute(fileType) == Some(ShowImage) || FilePreviewRoute(fileType) == Some(ShowPdf)
  {
    assert StartsWith(ImageJpeg, ImagePrefix) && StartsWith(ImagePng, ImagePrefix);
  }

  const DoctypeHtml: string := "<!DOCTYPE html>"

  /** `content.trim().startsWith('<!DOCTYPE html>')`, case-sensitive. */
  predicate LooksLikeHtml(content: string) {
    StartsWith(Trim(content), DoctypeHtml)
  }

  /**
    Trimming the end never matters for the sniff: the marker ends in `>`,
    which is not whitespace, so only leading whitespace is skipped.
   */
  lemma {:induction false} SniffSkipsOnlyLeadingWhitespace(content: string)
    ensures LooksLikeHtml(content) <==> StartsWith(TrimStart(content), DoctypeHtml)
  {
    var t := TrimStart(content);
    var r := TrimEnd(t);
    var p := DoctypeHtml;
    if StartsWith(r, p) {
      assert t[..|p|] == r[..|p|];
    }
    if StartsWith(t, p) {
      assert t[|p| - 1] == '>';
      assert r[..|p|] == t[..|p|];
    }
  }

  /** How HomePage renders text it read: HTML when the server said so or the sniff says so. */
  predicate HomePageShowsHtml(contentType: string, content: string) {
    contentType == TextHtml || LooksLikeHtml(content)
  }

  /** The decoders `readAsText` is called with. */
  datatype Encoding = Utf8 | Gbk

  /** Characters that mark a failed UTF-8 decoding: U+FFFD, U+FFFE and U+FFFF. */
  predicate IsReplacementLike(c: char) {
    c == '\U{FFFD}' || c == '\U{FFFE}' || c == '\U{FFFF}'
  }

  predicate HasReplacementLike(s: string) {
    exists i :: 0 <= i < |s| && IsReplacementLike(s[i])
  }

  /** The decodings attempted, in order, and the text kept; no text means the first read failed. */
  datatype TextRead = TextRead(attempts: seq<Encoding>, content: Option<string>)

  /**
    FilePreview.jsx `previewHtml` reading: UTF-8 first, GBK only when the
    UTF-8 text holds a replacement-like character, and the UTF-8 text kept
    when the GBK read fails. `read(e)` is `None` when the reader errors.
   */
  function ReadWithRetry(read: Encoding -> Option<string>): (r: TextRead)
    ensures 1 <= |r.attempts| <= 2 && r.attempts[0] == Utf8
    ensures |r.attempts| == 2 <==> read(Utf8).Some? && HasReplacementLike(read(Utf8).value)
    ensures |r.attempts| == 2 ==> r.attempts[1] == Gbk
    ensures r.content.None? <==> read(Utf8).None?
    ensures |r.attempts| == 1 ==> r.content == read(Utf8)
    ensures |r.attempts| == 2 ==> r.content == (if read(Gbk).Some? then read(Gbk) else read(Utf8))
  {
    match read(Utf8)
    case None => TextRead([Utf8], None)
    case Some(text) =>
      if HasReplacementLike(text) then
        match read(Gbk)
        case Some(retried) => TextRead([Utf8, Gbk], Some(retried))
        case None => TextRead([Utf8, Gbk], Some(text))
      else TextRead([Utf8], Some(text))
  }

  /** What `previewHtml` shows: an HTML frame, preformatted text, or the read-failure message. */
  datatype TextView = HtmlFrame(html: string) | PlainText(text: string) | ReadFailed

  function FilePreviewText(read: Encoding -> Option<string>): (v: TextView)
    ensures v.ReadFailed? <==> read(Utf8).None?
    ensures v.HtmlFrame? ==> LooksLikeHtml(v.html) && Some(v.html) == ReadWithRetry(read).content
    ensures v.PlainText? ==> !LooksLikeHtml(v.text) && Some(v.text) == ReadWithRetry(read).content
  {
    match ReadWithRetry(read).content
    case None => ReadFailed
    case Some(content) => if LooksLikeHtml(content) then HtmlFrame(content) else PlainText(content)
  }

  const TextAsPdfTitle: string := "\U{6587}\U{672C}\U{6587}\U{4EF6}\U{9884}\U{89C8} (PDF\U{683C}\U{5F0F})"
  const PdfTitle: string := "PDF\U{9884}\U{89C8}"

  /** FilePreview.jsx `previewPdf` title: the text-as-PDF variant exactly when the listing says `text/plain`. */
  function PdfModalTitle(listedType: Option<string>): (title: string)
    ensures title == TextAsPdfTitle <==> listedType == Some(TextPlain)
    ensures title == TextAsPdfTitle || title == PdfTitle
  {
    if listedType == Some(TextPlain) then TextAsPdfTitle else PdfTitle
  }
}

=== FILE: disposition.dfy ===
/**
  The three Content-Disposition filename resolvers of the web client and
  the regular expressions they are built on. Each resolver reads the
  `filename*` ext-value of section 3.2.1 of RFC 5987 (only with the charset
  written `UTF-8` and an empty language tag) and the `filename` parameter of
  section 4.3 of RFC 6266, and percent-decodes what it captured with
  `decodeURIComponent`.

  - fileUtils.js `extractFilename`: extended parameter first (charset
    matched ignoring case), then the plain one; any decode error gives the
    caller's default.
  - HomePage.jsx `downloadFile`: the same two searches, but an undecodable
    extended value falls through to the plain parameter, an undecodable plain
    value is used raw, and then the listing's name or `unknown_file` is used.
  - PreviewPage.jsx `handleDownload`: one case-sensitive alternation, so the
    leftmost parameter wins; a decode error fails the download.
 */
module Disposition {
  import opened Wrappers
  import opened Text
  import opened Percent

  const ExtendedPrefix: string := "filename*=UTF-8''"
  const QuotedPrefix: string := "filename=\""
  const BarePrefix: string := "filename="

  /** One character of a pattern literal against one of the subject; `/i` folds ASCII case only. */
  predicate CharMatches(a: char, b: char, ignoreCase: bool) {
    if ignoreCase then AsciiLowerChar(a) == AsciiLowerChar(b) else a == b
  }

  /** The literal `lit` occurs in `s` at position `p`. */
  predicate LiteralAt(s: string, p: nat, lit: string, ignoreCase: bool) {
    p + |lit| <= |s| && forall k :: 0 <= k < |lit| ==> CharMatches(s[p + k], lit[k], ignoreCase)
  }

  /** Length of the longest run of characters other than `stop` starting at `i`. */
  function RunLength(s: string, i: nat, stop: char): (n: nat)
    requires i <= |s|
    ensures i + n <= |s|
    ensures forall k :: i <= k < i + n ==> s[k] != stop
    ensures i + n == |s| || s[i + n] == stop
    decreases |s| - i
  {
    if i == |s| || s[i] == stop then 0 else 1 + RunLength(s, i + 1, stop)
  }

  /**
    A greedy `([^stop]+)` that ends the pattern: it captures the whole run,
    and matches only when the run is non-empty.
   */
  function RunAt(s: string, i: nat, stop: char): (r: Option<string>)
    requires i <= |s|
    ensures r.Some? ==> |r.value| > 0 && stop !in r.value
  {
    var n := RunLength(s, i, stop);
    if n == 0 then None else Some(s[i..i + n])
  }

  /** `filename\*=UTF-8''([^;]+)` anchored at `p`. */
  function ExtendedAt(s: string, p: nat, ignoreCase: bool): Option<string>
    requires p <= |s|
  {
    if LiteralAt(s, p, ExtendedPrefix, ignoreCase) then RunAt(s, p + |ExtendedPrefix|, ';') else None
  }

  /**
    `filename="([^"]+)"` anchored at `p`. Backtracking to a shorter run
    cannot help, since the character after a shorter run is not a quote, so
    the alternative matches exactly when the longest run is non-empty and is
    followed by a quote.
   */
  function QuotedAt(s: string, p: nat): Option<string>
    requires p <= |s|
  {
    if LiteralAt(s, p, QuotedPrefix, false) then
      var i := p + |QuotedPrefix|;
      var n := RunLength(s, i, '"');
      if n > 0 && i + n < |s| then Some(s[i..i + n]) else None
    else None
  }

  /** `filename=([^;]+)` anchored at `p`. */
  function BareAt(s: string, p: nat): Option<string>
    requires p <= |s|
  {
    if LiteralAt(s, p, BarePrefix, false) then RunAt(s, p + |BarePrefix|, ';') else None
  }

  /** The three regular expressions of the source. */
  datatype Pattern =
    | ExtendedIgnoringCase  // /filename\*=UTF-8''([^;]+)/i
    | PlainParameter        // /filename="([^"]+)"|filename=([^;]+)/
    | AnyParameter          // /filename\*=UTF-8''([^;]+)|filename="([^"]+)"|filename=([^;]+)/

  /**
    The capture of `pat` anchored at `p`: alternatives are tried in order
    and the first that matches wins. Every capture group is non-empty, so
    `m[1] || m[2] || m[3]` is the capture of the alternative that matched.
   */
  function MatchAt(pat: Pattern, s: string, p: nat): Option<string>
    requires p <= |s|
  {
    match pat
    case ExtendedIgnoringCase => ExtendedAt(s, p, true)
    case PlainParameter =>
      if QuotedAt(s, p).Some? then QuotedAt(s, p) else BareAt(s, p)
    case AnyParameter =>
      if ExtendedAt(s, p, false).Some? then ExtendedAt(s, p, false)
      else if QuotedAt(s, p).Some? then QuotedAt(s, p) else BareAt(s, p)
  }

  /** The first position at or after `from` where `pat` matches, or -1. */
  function FindFrom(pat: Pattern, s: string, from: nat): (k: int)
    ensures k == -1 || (from <= k <= |s| && MatchAt(pat, s, k).Some?)
    ensures k == -1 ==> forall q :: from <= q <= |s| ==> MatchAt(pat, s, q).None?
    ensures k != -1 ==> forall q :: from <= q < k ==> MatchAt(pat, s, q).None?
    decreases |s| + 1 - from
  {
    if from > |s| then -1
    else if MatchAt(pat, s, from).Some? then from
    else FindFrom(pat, s, from + 1)
  }

  /** `s.match(re)` without the global flag: the capture of the leftmost match. */
  function Match(pat: Pattern, s: string): (r: Option<string>)
    ensures r.None? <==> forall q :: 0 <= q <= |s| ==> MatchAt(pat, s, q).None?
    ensures r.Some? ==> |r.value| > 0
  {
    var k := FindFrom(pat, s, 0);
    if k < 0 then None else MatchAt(pat, s, k)
  }

  /** A match at `p` with none before it is the one `Match` reports. */
  lemma MatchIsLeftmost(pat: Pattern, s: string, p: nat)
    requires p <= |s| && MatchAt(pat, s, p).Some?
    requires forall q :: 0 <= q < p ==> MatchAt(pat, s, q).None?
    ensures Match(pat, s) == MatchAt(pat, s, p)
  {
    var k := FindFrom(pat, s, 0);
    assert k != -1;
    assert !(k < p) && !(p < k);
  }

  /** Patterns that match at the same positions with the same captures report the same match. */
  lemma SameMatches(a: Pattern, b: Pattern, s: string)
    requires forall q :: 0 <= q <= |s| ==> MatchAt(a, s, q) == MatchAt(b, s, q)
    ensures Match(a, s) == Match(b, s)
  {
    var ka, kb := FindFrom(a, s, 0), FindFrom(b, s, 0);
    if ka != -1 && kb != -1 {
      assert !(ka < kb) && !(kb < ka);
    }
  }

  /** The case-sensitive extended alternative matches only where the case-insensitive one does. */
  lemma ExtendedIgnoringCaseIsWeaker(s: string, p: nat)
    requires p <= |s|
    ensures ExtendedAt(s, p, false).Some? ==> ExtendedAt(s, p, true) == ExtendedAt(s, p, false)
  {
  }

  /** What any match of the extended alternative looks like around its `*=`. */
  lemma ExtendedShape(s: string, p: nat, ignoreCase: bool)
    requires p <= |s|
    ensures ExtendedAt(s, p, ignoreCase).Some? ==>
      p + |ExtendedPrefix| <= |s| && (s[p] == 'f' || (ignoreCase && s[p] == 'F'))
      && s[p + 8] == '*' && s[p + 9] == '='
  {
    if ExtendedAt(s, p, ignoreCase).Some? {
      assert CharMatches(s[p], ExtendedPrefix[0], ignoreCase);
      assert CharMatches(s[p + 8], ExtendedPrefix[8], ignoreCase);
      assert CharMatches(s[p + 9], ExtendedPrefix[9], ignoreCase);
    }
  }

  /** What any match of the plain alternatives looks like: `f` first and `=` as the ninth character. */
  lemma PlainShape(s: string, p: nat)
    requires p <= |s|
    ensures QuotedAt(s, p).Some? || BareAt(s, p).Some? ==>
      p + |BarePrefix| <= |s| && s[p] == 'f' && s[p + 8] == '='
  {
    if QuotedAt(s, p).Some? {
      assert CharMatches(s[p], QuotedPrefix[0], false) && CharMatches(s[p + 8], QuotedPrefix[8], false);
    }
    if BareAt(s, p).Some? {
      assert CharMatches(s[p], BarePrefix[0], false) && CharMatches(s[p + 8], BarePrefix[8], false);
    }
  }

  /** No pattern matches where the subject holds no `f` or `F`. */
  lemma NoMatchWithoutF(pat: Pattern, s: string, lo: nat, hi: nat)
    requires lo <= hi <= |s|
    requires 'f' !in s[lo..hi] && 'F' !in s[lo..hi]
    ensures forall q :: lo <= q < hi ==> MatchAt(pat, s, q).None?
  {
    forall q | lo <= q < hi
      ensures MatchAt(pat, s, q).None?
    {
      assert s[q] == s[lo..hi][q - lo];
      ExtendedShape(s, q, true);
      ExtendedShape(s, q, false);
      PlainShape(s, q);
    }
  }

  /** A slice equal to the literal is a match of the literal. */
  lemma LiteralAtSlice(s: string, p: nat, lit: string, ignoreCase: bool)
    requires p + |lit| <= |s| && s[p..p + |lit|] == lit
    ensures LiteralAt(s, p, lit, ignoreCase)
  {
    forall k | 0 <= k < |lit|
      ensures CharMatches(s[p + k], lit[k], ignoreCase)
    {
      assert s[p + k] == s[p..p + |lit|][k];
    }
  }

  /** A run that reaches the end of the subject is captured whole. */
  lemma RunToEnd(s: string, i: nat, stop: char)
    requires i < |s| && stop !in s[i..]
    ensures RunAt(s, i, stop) == Some(s[i..])
  {
    forall k | i <= k < |s|
      ensures s[k] != stop
    {
      assert s[k] == s[i..][k - i];
    }
    var n := RunLength(s, i, stop);
    assert i + n == |s|;
    assert s[i..i + n] == s[i..];
  }

  /**
    fileUtils.js `extractFilename`. When an extended parameter is found the
    result is its decoding or the default, never the plain parameter; a
    plain parameter is used only when no extended one is found; the
    function never fails.
   */
  function ExtractFilename(header: Option<string>, defaultName: string): (r: string)
    ensures !Filled(header) ==> r == defaultName
    ensures Filled(header) && Match(ExtendedIgnoringCase, header.value).Some? ==>
      var v := Match(ExtendedIgnoringCase, header.value).value;
      (PercentDecode(v).Some? ==> r == PercentDecode(v).value) && (PercentDecode(v).None? ==> r == defaultName)
    ensures Filled(header) && Match(ExtendedIgnoringCase, header.value).None?
            && Match(PlainParameter, header.value).Some? ==>
      var v := Match(PlainParameter, header.value).value;
      (PercentDecode(v).Some? ==> r == PercentDecode(v).value) && (PercentDecode(v).None? ==> r == defaultName)
    ensures Filled(header) && Match(ExtendedIgnoringCase, header.value).None?
            && Match(PlainParameter, header.value).None? ==>
      r == defaultName
  {
    if !Filled(header) then defaultName
    else
      var h := header.value;
      match Match(ExtendedIgnoringCase, h)
      case Some(v) => PercentDecode(v).GetOr(defaultName)
      case None =>
        match Match(PlainParameter, h)
        case Some(v) => PercentDecode(v).GetOr(defaultName)
        case None => defaultName
  }

  /** The case-insensitive extended search finds a value that decodes. */
  predicate ExtendedNameFound(h: string) {
    Match(ExtendedIgnoringCase, h).Some? && PercentDecode(Match(ExtendedIgnoringCase, h).value).Some?
  }

  /**
    The name HomePage.jsx `downloadFile` saves under; `listed` is the
    filename of the listing entry with the same id, if there is one.
   */
  function HomePageFilename(header: Option<string>, listed: Option<string>): (r: string)
    ensures r == "" ==> listed == Some("")
    ensures !Filled(header) ==> r == listed.GetOr("unknown_file")
    ensures Filled(header) && ExtendedNameFound(header.value) ==>
      r == PercentDecode(Match(ExtendedIgnoringCase, header.value).value).value
    ensures Filled(header) && !ExtendedNameFound(header.value) && Match(PlainParameter, header.value).Some? ==>
      var v := Match(PlainParameter, header.value).value;
      (PercentDecode(v).Some? ==> r == PercentDecode(v).value) && (PercentDecode(v).None? ==> r == v)
    ensures Filled(header) && !ExtendedNameFound(header.value) && Match(PlainParameter, header.value).None? ==>
      r == listed.GetOr("unknown_file")
  {
    var fromHeader :=
      if !Filled(header) then ""
      else
        var h := header.value;
        var extended :=
          match Match(ExtendedIgnoringCase, h)
          case Some(v) => PercentDecode(v).GetOr("")
          case None => "";
        if Truthy(extended) then extended
        else
          match Match(PlainParameter, h)
          case Some(v) => PercentDecode(v).GetOr(v)
          case None => "";
    if Truthy(fromHeader) then fromHeader
    else listed.GetOr("unknown_file")
  }

  /**
    The name PreviewPage.jsx `handleDownload` saves under; `None` is the
    decode error that fails the whole download.
   */
  function PreviewPageFilename(header: Option<string>): (r: Option<string>)
    ensures !Filled(header) ==> r == Some("download")
    ensures r.None? <==>
      Filled(header) && Match(AnyParameter, header.value).Some?
      && PercentDecode(Match(AnyParameter, header.value).value).None?
    ensures r.Some? && r.value != "download" ==> Filled(header) && Match(AnyParameter, header.value).Some?
    ensures Filled(header) && Match(AnyParameter, header.value).Some? ==>
      r == PercentDecode(Match(AnyParameter, header.value).value)
    ensures Filled(header) && Match(AnyParameter, header.value).None? ==> r == Some("download")
  {
    if !Filled(header) then Some("download")
    else
      match Match(AnyParameter, header.value)
      case Some(v) => PercentDecode(v)
      case None => Some("download")
  }

  const Attachment: string := "attachment; "

  /** The facts about an `encodeURIComponent` result the headers below rely on. */
  lemma EncodedValue(name: string, e: string)
    requires |name| > 0 && e == PercentEncode(name)
    ensures |e| > 0 && ';' !in e && '"' !in e && '=' !in e && PercentDecode(e) == Some(name)
  {
    EncodedAlphabet(name);
    forall i | 0 <= i < |e|
      ensures e[i] != ';' && e[i] != '"' && e[i] != '='
    {
      assert IsUnreserved(e[i]) || e[i] == '%';
    }
    DecodeEncode(name);
  }

  /** Both extended searches find the value of an extended parameter written right after `attachment; `. */
  lemma ExtendedHeaderMatches(e: string)
    requires |e| > 0 && ';' !in e
    ensures var h := Attachment + ExtendedPrefix + e;
      Match(ExtendedIgnoringCase, h) == Some(e) && Match(AnyParameter, h) == Some(e)
  {
    var h := Attachment + ExtendedPrefix + e;
    var start := |Attachment| + |ExtendedPrefix|;
    assert h[..12] == Attachment;
    assert h[12..start] == ExtendedPrefix;
    assert h[start..] == e;
    NoMatchWithoutF(ExtendedIgnoringCase, h, 0, 12);
    NoMatchWithoutF(AnyParameter, h, 0, 12);
    LiteralAtSlice(h, 12, ExtendedPrefix, true);
    LiteralAtSlice(h, 12, ExtendedPrefix, false);
    RunToEnd(h, start, ';');
    MatchIsLeftmost(ExtendedIgnoringCase, h, 12);
    MatchIsLeftmost(AnyParameter, h, 12);
  }

  /**
    A header carrying the name as an extended parameter, as section 3.2.1 of
    RFC 5987 writes it, gives the name back in all three resolvers.
   */
  lemma {:induction false} ExtendedRoundTrip(name: string, defaultName: string, listed: Option<string>)
    requires |name| > 0
    ensures var h := Attachment + ExtendedPrefix + PercentEncode(name);
      && ExtractFilename(Some(h), defaultName) == name
      && HomePageFilename(Some(h), listed) == name
      && PreviewPageFilename(Some(h)) == Some(name)
  {
    var e := PercentEncode(name);
    EncodedValue(name, e);
    ExtendedHeaderMatches(e);
  }

  /** A run that stops at the character `stop` at position `j`. */
  lemma RunStopsAt(s: string, i: nat, j: nat, stop: char)
    requires i <= j < |s| && stop !in s[i..j] && s[j] == stop
    ensures RunLength(s, i, stop) == j - i
  {
    forall k | i <= k < j
      ensures s[k] != stop
    {
      assert s[k] == s[i..j][k - i];
    }
  }

  /** No plain alternative matches where the subject holds no lower-case `f`. */
  lemma NoPlainMatchWithoutF(s: string, lo: nat, hi: nat)
    requires lo <= hi <= |s| && 'f' !in s[lo..hi]
    ensures forall q :: lo <= q < hi ==> MatchAt(PlainParameter, s, q).None?
  {
    forall q | lo <= q < hi
      ensures MatchAt(PlainParameter, s, q).None?
    {
      assert s[q] == s[lo..hi][q - lo];
      PlainShape(s, q);
    }
  }

  /** No extended alternative matches at `q` when the `=` it needs at `q + 9` lies in a stretch without one. */
  lemma NoExtendedWithoutEquals(s: string, lo: nat, q: nat, ignoreCase: bool)
    requires lo <= q + 9 && lo <= |s| && q <= |s| && '=' !in s[lo..]
    ensures ExtendedAt(s, q, ignoreCase).None?
  {
    ExtendedShape(s, q, ignoreCase);
    if q + 9 < |s| {
      assert s[q + 9] == s[lo..][q + 9 - lo];
    }
  }

  /** The searches on a header carrying only a quoted plain parameter. */
  lemma QuotedHeaderMatches(e: string)
    requires |e| > 0 && '"' !in e && '=' !in e
    ensures var h := Attachment + QuotedPrefix + e + "\"";
      && Match(ExtendedIgnoringCase, h).None?
      && Match(PlainParameter, h) == Some(e)
      && Match(AnyParameter, h) == Some(e)
  {
    var h := Attachment + QuotedPrefix + e + "\"";
    assert h[..12] == Attachment;
    assert h[12..22] == QuotedPrefix;
    assert h[22..22 + |e|] == e;
    assert h[22..] == e + "\"";
    NoMatchWithoutF(ExtendedIgnoringCase, h, 0, 12);
    NoMatchWithoutF(PlainParameter, h, 0, 12);
    NoMatchWithoutF(AnyParameter, h, 0, 12);
    forall q | 12 <= q <= |h|
      ensures ExtendedAt(h, q, true).None?
    {
      if q == 12 {
        ExtendedShape(h, q, true);
      } else {
        NoExtendedWithoutEquals(h, 22, q, true);
      }
    }
    ExtendedShape(h, 12, false);
    LiteralAtSlice(h, 12, QuotedPrefix, false);
    RunStopsAt(h, 22, 22 + |e|, '"');
    MatchIsLeftmost(PlainParameter, h, 12);
    MatchIsLeftmost(AnyParameter, h, 12);
  }

  /** A header carrying the name as a quoted plain parameter gives the name back in all three resolvers. */
  lemma {:induction false} QuotedRoundTrip(name: string, defaultName: string, listed: Option<string>)
    requires |name| > 0
    ensures var h := Attachment + QuotedPrefix + PercentEncode(name) + "\"";
      && ExtractFilename(Some(h), defaultName) == name
      && HomePageFilename(Some(h), listed) == name
      && PreviewPageFilename(Some(h)) == Some(name)
  {
    var e := PercentEncode(name);
    EncodedValue(name, e);
    QuotedHeaderMatches(e);
  }

  /** What separates a quoted plain parameter from a following extended one. */
  const QuoteThenExtended: string := "\"; " + ExtendedPrefix

  /** The case-insensitive search on a quoted plain parameter followed by an extended one finds the extended value. */
  lemma OrderedHeaderExtended(ea: string, eb: string)
    requires |ea| > 0 && '=' !in ea
    requires |eb| > 0 && ';' !in eb
    ensures Match(ExtendedIgnoringCase, Attachment + QuotedPrefix + ea + QuoteThenExtended + eb) == Some(eb)
  {
    var h := Attachment + QuotedPrefix + ea + QuoteThenExtended + eb;
    var m := 22 + |ea|;
    var x := m + 3;
    assert forall j :: 0 <= j < 12 ==> QuoteThenExtended[j] != '=';
    assert h[..12] == Attachment;
    NoMatchWithoutF(ExtendedIgnoringCase, h, 0, 12);
    forall q | 12 <= q < x
      ensures ExtendedAt(h, q, true).None?
    {
      ExtendedShape(h, q, true);
      if q + 9 < |h| {
        if q + 9 < 22 {
          assert h[q + 9] == QuotedPrefix[q + 9 - 12];
        } else if q + 9 < m {
          assert h[q + 9] == ea[q + 9 - 22];
        } else {
          assert h[q + 9] == QuoteThenExtended[q + 9 - m];
        }
      }
    }
    assert h[x..x + 17] == ExtendedPrefix;
    assert h[x + 17..] == eb;
    LiteralAtSlice(h, x, ExtendedPrefix, true);
    RunToEnd(h, x + 17, ';');
    MatchIsLeftmost(ExtendedIgnoringCase, h, x);
  }

  /** The single alternation on the same header stops at the leftmost, quoted parameter. */
  lemma OrderedHeaderAny(ea: string, eb: string)
    requires |ea| > 0 && '"' !in ea
    ensures Match(AnyParameter, Attachment + QuotedPrefix + ea + QuoteThenExtended + eb) == Some(ea)
  {
    var h := Attachment + QuotedPrefix + ea + QuoteThenExtended + eb;
    var m := 22 + |ea|;
    assert h[..12] == Attachment;
    assert h[12..22] == QuotedPrefix;
    assert h[22..m] == ea;
    assert h[m] == '"';
    NoMatchWithoutF(AnyParameter, h, 0, 12);
    ExtendedShape(h, 12, false);
    LiteralAtSlice(h, 12, QuotedPrefix, false);
    RunStopsAt(h, 22, m, '"');
    MatchIsLeftmost(AnyParameter, h, 12);
  }

  /**
    Where the resolvers disagree on parameter order: with a plain parameter
    before an extended one, fileUtils and HomePage return the extended name
    while PreviewPage returns the plain one.
   */
  lemma {:induction false} LeftmostParameterWins(a: string, b: string, defaultName: string, listed: Option<string>)
    requires |a| > 0 && |b| > 0
    ensures var h := Attachment + QuotedPrefix + PercentEncode(a) + QuoteThenExtended + PercentEncode(b);
      && ExtractFilename(Some(h), defaultName) == b
      && HomePageFilename(Some(h), listed) == b
      && PreviewPageFilename(Some(h)) == Some(a)
  {
    var ea, eb := PercentEncode(a), PercentEncode(b);
    EncodedValue(a, ea);
    EncodedValue(b, eb);
    OrderedHeaderExtended(ea, eb);
    OrderedHeaderAny(ea, eb);
  }

  /** The extended prefix with its charset in lower case, as some servers write it. */
  const LowerCaseExtendedPrefix: string := "filename*=utf-8''"

  lemma LowerCaseCharsetMatchesIgnoringCase(s: string, p: nat)
    requires p + 17 <= |s| && s[p..p + 17] == LowerCaseExtendedPrefix
    ensures LiteralAt(s, p, ExtendedPrefix, true)
  {
    forall k | 0 <= k < 17
      ensures CharMatches(s[p + k], ExtendedPrefix[k], true)
    {
      assert s[p + k] == LowerCaseExtendedPrefix[k];
    }
  }

  /** The case-insensitive search accepts an extended parameter whose charset is written in lower case. */
  lemma LowerCaseHeaderExtended(e: string)
    requires |e| > 0 && ';' !in e
    ensures Match(ExtendedIgnoringCase, Attachment + LowerCaseExtendedPrefix + e) == Some(e)
  {
    var h := Attachment + LowerCaseExtendedPrefix + e;
    assert h[..12] == Attachment;
    assert h[12..29] == LowerCaseExtendedPrefix;
    assert h[29..] == e;
    NoMatchWithoutF(ExtendedIgnoringCase, h, 0, 12);
    LowerCaseCharsetMatchesIgnoringCase(h, 12);
    RunToEnd(h, 29, ';');
    MatchIsLeftmost(ExtendedIgnoringCase, h, 12);
  }

  /** In that header the only `=` is the one after `filename*`. */
  lemma LowerCaseHeaderEquals(e: string, k: nat)
    requires '=' !in e && k < |Attachment + LowerCaseExtendedPrefix + e| && k != 21
    ensures (Attachment + LowerCaseExtendedPrefix + e)[k] != '='
  {
    var h := Attachment + LowerCaseExtendedPrefix + e;
    if k < 12 {
      assert h[k] == Attachment[k];
    } else if k < 29 {
      assert h[k] == LowerCaseExtendedPrefix[k - 12];
    } else {
      assert h[k] == e[k - 29];
    }
  }

  /** No plain alternative matches in that header: its only `=` follows a `*`. */
  lemma LowerCaseNoPlainAt(e: string, q: nat)
    requires '=' !in e && q <= |Attachment + LowerCaseExtendedPrefix + e|
    ensures var h := Attachment + LowerCaseExtendedPrefix + e;
      QuotedAt(h, q).None? && BareAt(h, q).None?
  {
    var h := Attachment + LowerCaseExtendedPrefix + e;
    PlainShape(h, q);
    if q + 8 < |h| && q + 8 != 21 {
      LowerCaseHeaderEquals(e, q + 8);
    }
    if q == 13 {
      assert h[13] == 'i';
    }
  }

  /** The case-sensitive extended alternative does not match in that header. */
  lemma LowerCaseNoExtendedAt(e: string, q: nat)
    requires '=' !in e && q <= |Attachment + LowerCaseExtendedPrefix + e|
    ensures ExtendedAt(Attachment + LowerCaseExtendedPrefix + e, q, false).None?
  {
    var h := Attachment + LowerCaseExtendedPrefix + e;
    ExtendedShape(h, q, false);
    if q + 9 < |h| && q + 9 != 21 {
      LowerCaseHeaderEquals(e, q + 9);
    }
    if q == 12 && 29 <= |h| {
      assert !CharMatches(h[22], ExtendedPrefix[10], false);
    }
  }

  /** The case-sensitive alternation matches nowhere in that header. */
  lemma LowerCaseHeaderAny(e: string)
    requires '=' !in e
    ensures Match(AnyParameter, Attachment + LowerCaseExtendedPrefix + e).None?
  {
    var h := Attachment + LowerCaseExtendedPrefix + e;
    forall q | 0 <= q <= |h|
      ensures MatchAt(AnyParameter, h, q).None?
    {
      LowerCaseNoPlainAt(e, q);
      LowerCaseNoExtendedAt(e, q);
    }
  }

  /**
    Where the resolvers disagree on case: with the charset written `utf-8`
    fileUtils and HomePage still find the extended name, while PreviewPage
    matches nothing and saves under `download`.
   */
  lemma {:induction false} LowerCaseCharsetIgnored(name: string, defaultName: string, listed: Option<string>)
    requires |name| > 0
    ensures var h := Attachment + LowerCaseExtendedPrefix + PercentEncode(name);
      && ExtractFilename(Some(h), defaultName) == name
      && HomePageFilename(Some(h), listed) == name
      && PreviewPageFilename(Some(h)) == Some("download")
  {
    var e := PercentEncode(name);
    EncodedValue(name, e);
    LowerCaseHeaderExtended(e);
    LowerCaseHeaderAny(e);
  }

  /** An undecodable extended value: `%FF` is not the start of any UTF-8 sequence. */
  const BadValue: string := "%FF"

  lemma BadValueUndecodable()
    ensures PercentDecode(BadValue).None?
  {
  }

  /** What separates an undecodable extended value from the quoted parameter after it. */
  const BadValueThenQuoted: string := BadValue + "; " + QuotedPrefix

  /** Both extended searches capture the undecodable value of the leading extended parameter. */
  lemma BrokenHeaderExtended(ea: string)
    ensures var h := Attachment + ExtendedPrefix + BadValueThenQuoted + ea + "\"";
      Match(ExtendedIgnoringCase, h) == Some(BadValue) && Match(AnyParameter, h) == Some(BadValue)
  {
    var h := Attachment + ExtendedPrefix + BadValueThenQuoted + ea + "\"";
    assert h[..12] == Attachment;
    assert h[12..29] == ExtendedPrefix;
    assert h[29..32] == BadValue;
    assert h[32] == ';';
    NoMatchWithoutF(ExtendedIgnoringCase, h, 0, 12);
    NoMatchWithoutF(AnyParameter, h, 0, 12);
    LiteralAtSlice(h, 12, ExtendedPrefix, true);
    LiteralAtSlice(h, 12, ExtendedPrefix, false);
    RunStopsAt(h, 29, 32, ';');
    MatchIsLeftmost(ExtendedIgnoringCase, h, 12);
    MatchIsLeftmost(AnyParameter, h, 12);
  }

  /** No plain match starts inside an extended parameter's name written at position 12. */
  lemma BrokenHeaderNoPlainInName(h: string, q: nat)
    requires 29 <= |h| && h[12..29] == ExtendedPrefix && 12 <= q < 29
    ensures MatchAt(PlainParameter, h, q).None?
  {
    PlainShape(h, q);
    if q == 12 {
      assert h[20] == h[12..29][8];
    } else {
      assert forall j :: 1 <= j < 17 ==> ExtendedPrefix[j] != 'f';
      assert h[q] == h[12..29][q - 12];
    }
  }

  /** No plain match starts inside the undecodable value or the separator after it. */
  lemma BrokenHeaderNoPlainInValue(h: string, q: nat)
    requires 34 <= |h| && h[29..32] == BadValue && h[32] == ';' && h[33] == ' ' && 29 <= q < 34
    ensures MatchAt(PlainParameter, h, q).None?
  {
    PlainShape(h, q);
    if q < 32 {
      assert h[q] == h[29..32][q - 29];
    }
  }

  /** The plain search skips the extended parameter and finds the quoted one after it. */
  lemma BrokenHeaderPlain(ea: string)
    requires |ea| > 0 && '"' !in ea
    ensures Match(PlainParameter, Attachment + ExtendedPrefix + BadValueThenQuoted + ea + "\"") == Some(ea)
  {
    var h := Attachment + ExtendedPrefix + BadValueThenQuoted + ea + "\"";
    assert h[..12] == Attachment;
    assert h[12..29] == ExtendedPrefix;
    assert h[29..32] == BadValue && h[32] == ';' && h[33] == ' ';
    NoPlainMatchWithoutF(h, 0, 12);
    forall q | 12 <= q < 34
      ensures MatchAt(PlainParameter, h, q).None?
    {
      if q < 29 {
        BrokenHeaderNoPlainInName(h, q);
      } else {
        BrokenHeaderNoPlainInValue(h, q);
      }
    }
    assert h[34..44] == QuotedPrefix;
    assert h[44..44 + |ea|] == ea;
    assert h[44 + |ea|] == '"';
    LiteralAtSlice(h, 34, QuotedPrefix, false);
    RunStopsAt(h, 44, 44 + |ea|, '"');
    MatchIsLeftmost(PlainParameter, h, 34);
  }

  /**
    Where the resolvers disagree on decode errors: an undecodable extended
    value gives fileUtils its default (no fallthrough), lets HomePage fall
    through to the plain parameter, and fails PreviewPage's download.
   */
  lemma {:induction false} UndecodableExtendedValue(a: string, defaultName: string, listed: Option<string>)
    requires |a| > 0
    ensures var h := Attachment + ExtendedPrefix + BadValueThenQuoted + PercentEncode(a) + "\"";
      && ExtractFilename(Some(h), defaultName) == defaultName
      && HomePageFilename(Some(h), listed) == a
      && PreviewPageFilename(Some(h)).None?
  {
    var ea := PercentEncode(a);
    EncodedValue(a, ea);
    BrokenHeaderExtended(ea);
    BrokenHeaderPlain(ea);
    BadValueUndecodable();
  }

  /** Where no extended parameter matches even ignoring case, the alternation finds what the plain search finds. */
  lemma AlternationWithoutExtended(h: string)
    requires Match(ExtendedIgnoringCase, h).None?
    ensures Match(AnyParameter, h) == Match(PlainParameter, h)
  {
    forall q | 0 <= q <= |h|
      ensures MatchAt(AnyParameter, h, q) == MatchAt(PlainParameter, h, q)
    {
      assert MatchAt(ExtendedIgnoringCase, h, q).None?;
      ExtendedIgnoringCaseIsWeaker(h, q);
    }
    SameMatches(AnyParameter, PlainParameter, h);
  }

  /**
    Without any extended parameter, and with a plain value that decodes,
    the three resolvers agree on the decoded name.
   */
  lemma AgreementWithoutExtended(h: string, defaultName: string, listed: Option<string>)
    requires Match(ExtendedIgnoringCase, h).None?
    requires Match(PlainParameter, h).Some? && PercentDecode(Match(PlainParameter, h).value).Some?
    ensures var name := PercentDecode(Match(PlainParameter, h).value).value;
      && ExtractFilename(Some(h), defaultName) == name
      && HomePageFilename(Some(h), listed) == name
      && PreviewPageFilename(Some(h)) == Some(name)
  {
    PlainShape(h, FindFrom(PlainParameter, h, 0));
    AlternationWithoutExtended(h);
  }

  /**
    Whenever fileUtils resolves a name other than its default, HomePage
    resolves the same name; the converse fails (`UndecodableExtendedValue`).
   */
  lemma HomePageExtendsFileUtils(header: Option<string>, defaultName: string, listed: Option<string>)
    requires ExtractFilename(header, defaultName) != defaultName
    ensures HomePageFilename(header, listed) == ExtractFilename(header, defaultName)
  {
  }

  /** `encodeURIComponent` of `文`: three UTF-8 octets, each escaped. */
  lemma FirstCharEncoded()
    ensures EncodeChar('\U{6587}') == "%E6%96%87"
  {
    assert Utf8Encode(0x6587) == [0xE6, 0x96, 0x87];
    assert HexUpper(14) == 'E' && HexUpper(6) == '6' && HexUpper(9) == '9' && HexUpper(8) == '8' && HexUpper(7) == '7';
    assert EscapeOctets([0x87]) == "%87";
    assert EscapeOctets([0x96, 0x87]) == "%96%87";
  }

  /** `encodeURIComponent` of `档`. */
  lemma SecondCharEncoded()
    ensures EncodeChar('\U{6863}') == "%E6%A1%A3"
  {
    assert Utf8Encode(0x6863) == [0xE6, 0xA1, 0xA3];
    assert HexUpper(14) == 'E' && HexUpper(6) == '6' && HexUpper(10) == 'A' && HexUpper(1) == '1' && HexUpper(3) == '3';
    assert EscapeOctets([0xA3]) == "%A3";
    assert EscapeOctets([0xA1, 0xA3]) == "%A1%A3";
  }

  /** `encodeURIComponent` of the example name `文档.pdf`. */
  lemma ChineseNameEncoded()
    ensures PercentEncode("\U{6587}\U{6863}.pdf") == "%E6%96%87%E6%A1%A3.pdf"
  {
    var name := "\U{6587}\U{6863}.pdf";
    FirstCharEncoded();
    SecondCharEncoded();
    assert PercentEncode(".pdf") == ".pdf";
    assert name[1..][1..] == ".pdf";
    assert PercentEncode(name[1..]) == "%E6%A1%A3" + ".pdf";
    assert PercentEncode(name) == "%E6%96%87" + PercentEncode(name[1..]);
  }

  /** The example of a UTF-8 name: `文档.pdf` sent as an extended parameter. */
  lemma EncodedChineseName()
    ensures PercentDecode("%E6%96%87%E6%A1%A3.pdf") == Some("\U{6587}\U{6863}.pdf")
    ensures ExtractFilename(Some(Attachment + ExtendedPrefix + "%E6%96%87%E6%A1%A3.pdf"), "download")
            == "\U{6587}\U{6863}.pdf"
  {
    var name := "\U{6587}\U{6863}.pdf";
    var e := "%E6%96%87%E6%A1%A3.pdf";
    ChineseNameEncoded();
    DecodeEncode(name);
    ExtendedRoundTrip(name, "download", None);
  }
}

=== FILE: filepreview.dfy ===
/**
  The shared preview component (components/FilePreview.jsx): the request it
  sends, how it presents what comes back, and how it maps failures to its
  three return values (`true`, `{needCode: true}`, `false`) and messages.
 */
module PreviewComponent {
  import opened Wrappers
  import opened Text
  import opened Content
  import opened Requests

  /** `previewFile`'s request: the preview resource with the optional code and the bearer header. */
  function PreviewRequest(id: nat, code: Option<string>, token: Option<string>): (r: Request)
    ensures r == ApiFileRequest(id, FilePreview, code, token)
  {
    var d := DecimalText(id);
    assert ApiBase + ResourcePath(id, FilePreview) == ApiBase + "/files/" + d + "/preview";
    BaseThenQuery(ApiBase, ResourcePath(id, FilePreview), code);
    assert AuthHeaders(token) == Intercept(map[], token);
    Request(WithCode(ApiBase + "/files/" + d + "/preview", code), AuthHeaders(token))
  }

  /**
    An error as the handler inspects it: the HTTP status when the server
    answered, and the error's own message. The request asks for a Blob, so
    axios leaves an error response's body a Blob as well and its `detail`
    is always undefined: a failure carries no server detail.
   */
  datatype Failure = Failure(status: Option<nat>, message: Option<string>)

  /** What the request produced: a response with its Content-Type, or an error. */
  datatype Reply = Delivered(contentType: Option<string>) | Rejected(failure: Failure)

  /** The value `previewFile` resolves to. */
  datatype Returned = ReturnedTrue | ReturnedNeedCode | ReturnedFalse

  /** What ends up on screen. */
  datatype Shown = ShownHtml(html: string) | ShownText(text: string) | ShownImage | ShownPdf(title: string)

  datatype Outcome = Outcome(returned: Returned, shown: Option<Shown>, toast: Option<string>)

  const NeedCodeMessage: string := "\U{9700}\U{8981}\U{4E0B}\U{8F7D}\U{7801}\U{8BBF}\U{95EE}\U{6B64}\U{6587}\U{4EF6}"
  const NotFoundMessage: string := "\U{6587}\U{4EF6}\U{4E0D}\U{5B58}\U{5728}\U{6216}\U{5DF2}\U{88AB}\U{5220}\U{9664}"
  const BadRequestDefault: string := "\U{6B64}\U{6587}\U{4EF6}\U{7C7B}\U{578B}\U{4E0D}\U{652F}\U{6301}\U{9884}\U{89C8}"
  const FailurePrefix: string := "\U{6587}\U{4EF6}\U{9884}\U{89C8}\U{5931}\U{8D25}: "
  const UnknownError: string := "\U{672A}\U{77E5}\U{9519}\U{8BEF}"
  /** The message of the error `showPreviewModal` throws for an unsupported type. */
  const UnsupportedMessage: string := "\U{4E0D}\U{652F}\U{6301}\U{9884}\U{89C8}\U{6B64}\U{7C7B}\U{578B}\U{7684}\U{6587}\U{4EF6}"
  const ReadFailureMessage: string := "\U{6587}\U{4EF6}\U{9884}\U{89C8}\U{5931}\U{8D25}\U{FF1A}\U{65E0}\U{6CD5}\U{6B63}\U{786E}\U{8BFB}\U{53D6}\U{6587}\U{4EF6}\U{5185}\U{5BB9}"

  /** `a || b` on optional strings. */
  function OrElse(a: Option<string>, b: string): (r: string)
    ensures Filled(a) ==> r == a.value
    ensures !Filled(a) ==> r == b
  {
    if Filled(a) then a.value else b
  }

  /** The `catch` block of `previewFile`. */
  function ErrorOutcome(e: Failure): (o: Outcome)
    ensures o.shown.None? && o.toast.Some?
    ensures o.returned == ReturnedNeedCode <==> e.status == Some(403)
    ensures o.returned != ReturnedTrue
    ensures e.status == Some(403) ==> o.toast == Some(NeedCodeMessage)
    ensures e.status == Some(404) ==> o == Outcome(ReturnedFalse, None, Some(NotFoundMessage))
    ensures e.status == Some(400) ==> o == Outcome(ReturnedFalse, None, Some(BadRequestDefault))
    ensures e.status != Some(400) && e.status != Some(403) && e.status != Some(404) ==>
      o == Outcome(ReturnedFalse, None, Some(FailurePrefix + OrElse(e.message, UnknownError)))
  {
    if e.status == Some(403) then Outcome(ReturnedNeedCode, None, Some(NeedCodeMessage))
    else if e.status == Some(404) then Outcome(ReturnedFalse, None, Some(NotFoundMessage))
    else if e.status == Some(400) then Outcome(ReturnedFalse, None, Some(BadRequestDefault))
    else Outcome(ReturnedFalse, None, Some(FailurePrefix + OrElse(e.message, UnknownError)))
  }

  /**
    `previewFile` after its request: the route chosen by `showPreviewModal`,
    with a read failure inside `previewHtml` reported but swallowed.
    `listedType` is the `file_type` of the `fileInfo` the caller passed.
   */
  function PreviewFile(reply: Reply, listedType: Option<string>, read: Encoding -> Option<string>): (o: Outcome)
    ensures o.returned == ReturnedTrue <==> reply.Delivered? && FilePreviewRoute(reply.contentType).Some?
    ensures o.returned == ReturnedNeedCode <==> reply.Rejected? && reply.failure.status == Some(403)
    ensures o.shown.Some? ==> o.returned == ReturnedTrue && o.toast.None?
    ensures o.returned == ReturnedTrue && o.shown.None? ==> o.toast == Some(ReadFailureMessage)
    ensures o.shown.Some? && o.shown.value.ShownHtml? ==> LooksLikeHtml(o.shown.value.html)
    ensures o.shown.Some? && o.shown.value.ShownText? ==> !LooksLikeHtml(o.shown.value.text)
    ensures reply.Delivered? && FilePreviewRoute(reply.contentType) == Some(ShowImage) ==> o.shown == Some(ShownImage)
    ensures reply.Delivered? && FilePreviewRoute(reply.contentType) == Some(ShowPdf) ==>
      o.shown == Some(ShownPdf(PdfModalTitle(listedType)))
    ensures o.returned == ReturnedTrue && o.shown.None? <==> reply == Delivered(Some(TextHtml)) && read(Utf8).None?
    ensures reply.Rejected? ==> o == ErrorOutcome(reply.failure)
    ensures reply.Delivered? && FilePreviewRoute(reply.contentType).None? ==>
      o == Outcome(ReturnedFalse, None, Some(FailurePrefix + UnsupportedMessage))
  {
    match reply
    case Rejected(e) => ErrorOutcome(e)
    case Delivered(contentType) =>
      var route := FilePreviewRoute(contentType);
      if route.None? then ErrorOutcome(Failure(None, Some(UnsupportedMessage)))
      else if route.value == ReadAsText then
        match FilePreviewText(read)
        case ReadFailed => Outcome(ReturnedTrue, None, Some(ReadFailureMessage))
        case HtmlFrame(html) => Outcome(ReturnedTrue, Some(ShownHtml(html)), None)
        case PlainText(text) => Outcome(ReturnedTrue, Some(ShownText(text)), None)
      else if route.value == ShowImage then Outcome(ReturnedTrue, Some(ShownImage), None)
      else Outcome(ReturnedTrue, Some(ShownPdf(PdfModalTitle(listedType))), None)
  }

  /** An HTML response whose bytes cannot be read still resolves to `true`; only a message tells. */
  lemma ReadFailureStillSucceeds(listedType: Option<string>, read: Encoding -> Option<string>)
    requires read(Utf8).None?
    ensures PreviewFile(Delivered(Some(TextHtml)), listedType, read) == Outcome(ReturnedTrue, None, Some(ReadFailureMessage))
  {
  }

  /**
    A plain-text response, although `isFilePreviewable` lists the type,
    fails as unsupported and is reported as a generic failure, not as the
    400 message.
   */
  lemma PlainTextIsUnsupported(listedType: Option<string>, read: Encoding -> Option<string>)
    ensures IsFilePreviewable(Some(TextPlain))
    ensures PreviewFile(Delivered(Some(TextPlain)), listedType, read)
            == Outcome(ReturnedFalse, None, Some(FailurePrefix + UnsupportedMessage))
  {
    NamedTypesAreNotImages();
  }

  /** An HTML response is shown as HTML exactly when the text kept after the retry passes the sniff. */
  lemma HtmlShownIffSniffed(listedType: Option<string>, read: Encoding -> Option<string>)
    requires read(Utf8).Some?
    ensures var o := PreviewFile(Delivered(Some(TextHtml)), listedType, read);
      var kept := ReadWithRetry(read).content.value;
      o.shown == Some(if LooksLikeHtml(kept) then ShownHtml(kept) else ShownText(kept))
  {
  }
}

=== FILE: homepage.dfy ===
/**
  The signed-in file list page (pages/HomePage.jsx): the upload form's
  fields, the search filter, which row buttons are enabled, the share link,
  the download-code dialog with its two modes, and the download and preview
  flows the buttons start.
 */
module HomePage {
  import opened Wrappers
  import opened Text
  import opened Records
  import opened Auth
  import opened Server
  import opened Requests
  import opened Content
  import PreviewComponent
  import Disposition
  import Percent

  // ---------------------------------------------------------------------
  // Upload form
  // ---------------------------------------------------------------------

  /**
    `handleUpload`'s fields: `is_private` always, as the text of the switch's
    boolean, and the typed code only while the switch is on and the code is
    non-empty (the input keeps its text when the switch is turned off).
   */
  function HomeUploadFields(isPrivate: bool, typedCode: string): (fields: seq<FormField>)
    ensures FormField("is_private", "true") in fields <==> isPrivate
    ensures forall c :: FormField("download_code", c) in fields <==> isPrivate && Truthy(typedCode) && c == typedCode
  {
    [FormField("is_private", if isPrivate then "true" else "false")]
    + (if isPrivate && Truthy(typedCode) then [FormField("download_code", typedCode)] else [])
  }

  /** The server reads back the switch, and the code only for a private upload with a typed code. */
  lemma HomeUploadFieldsRoundTrip(isPrivate: bool, typedCode: string)
    ensures ServerUploadParameters(HomeUploadFields(isPrivate, typedCode))
            == (isPrivate, if isPrivate && Truthy(typedCode) then Some(typedCode) else None)
  {
    var fields := HomeUploadFields(isPrivate, typedCode);
    if isPrivate && Truthy(typedCode) {
      assert fields[1..] == [FormField("download_code", typedCode)];
    }
  }

  // ---------------------------------------------------------------------
  // Search filter
  // ---------------------------------------------------------------------

  const PrivateLabel: string := "\U{79C1}\U{5BC6}\U{6587}\U{4EF6}"
  const PublicLabel: string := "\U{516C}\U{5F00}\U{6587}\U{4EF6}"

  function VisibilityLabel(isPrivate: bool): string {
    if isPrivate then PrivateLabel else PublicLabel
  }

  /**
    A row passes the search box when the box is empty, or the lower-cased
    text occurs in the lower-cased name, uploader or file type, or in the
    row's visibility label.
   */
  predicate MatchesSearch(v: FileView, text: string) {
    text == "" ||
    var t := Lower(text);
    Contains(Lower(v.filename), t) || Contains(Lower(v.uploader), t)
    || (v.fileType.Some? && Contains(Lower(v.fileType.value), t))
    || Contains(VisibilityLabel(v.isPrivate), t)
  }

  /** The table's data source: the listing filtered by the search text, in listing order. */
  function Search(files: seq<FileView>, text: string): (r: seq<FileView>)
    ensures forall v :: v in r <==> v in files && MatchesSearch(v, text)
    ensures |r| <= |files|
  {
    if |files| == 0 then []
    else (if MatchesSearch(files[0], text) then [files[0]] else []) + Search(files[1..], text)
  }

  /** An empty search box shows the whole listing. */
  lemma {:induction false} EmptySearchKeepsAll(files: seq<FileView>)
    ensures Search(files, "") == files
  {
    if |files| > 0 {
      EmptySearchKeepsAll(files[1..]);
      assert files == [files[0]] + files[1..];
    }
  }

  /** Filtering a concatenation filters each part: the listing order is kept. */
  lemma {:induction false} SearchDistributes(a: seq<FileView>, b: seq<FileView>, text: string)
    ensures Search(a + b, text) == Search(a, text) + Search(b, text)
  {
    if |a| > 0 {
      assert (a + b)[1..] == a[1..] + b;
      SearchDistributes(a[1..], b, text);
    } else {
      assert a + b == b;
    }
  }

  /** Searching the filtered table again with the same text changes nothing. */
  lemma {:induction false} SearchIdempotent(files: seq<FileView>, text: string)
    ensures Search(Search(files, text), text) == Search(files, text)
  {
    if |files| > 0 {
      var head := if MatchesSearch(files[0], text) then [files[0]] else [];
      SearchDistributes(head, Search(files[1..], text), text);
      SearchIdempotent(files[1..], text);
      if MatchesSearch(files[0], text) {
        assert Search(head, text) == head by {
          assert head[1..] == [];
        }
      }
    }
  }

  // ---------------------------------------------------------------------
  // Row buttons and the share dialog
  // ---------------------------------------------------------------------

  predicate PreviewEnabled(v: FileView) {
    v.canPreview
  }

  predicate ShareEnabled(v: FileView, user: Username) {
    !v.isPrivate || v.uploader == user
  }

  predicate DeleteEnabled(v: FileView, user: Username) {
    v.uploader == user
  }

  /** The share dialog shows the code only to the uploader of a private file. */
  predicate CodeShown(v: FileView, user: Username) {
    v.isPrivate && v.uploader == user
  }

  /**
    On a listing entry the share and delete buttons are enabled exactly when
    the server's sharing and management checks would allow the signed-in user,
    and a code the share dialog shows is the stored one.
   */
  lemma ButtonsFollowServerPolicy(f: FileRecord, user: Username)
    requires CodeMatchesVisibility(f)
    ensures ShareEnabled(View(f, user), user) <==> CanShareFile(Some(user), f)
    ensures DeleteEnabled(View(f, user), user) <==> CheckFileManagement(Some(user), f) == Allowed
    ensures CodeShown(View(f, user), user) ==> View(f, user).downloadCode == f.downloadCode && Filled(f.downloadCode)
  {
  }

  /** The listing never sets `can_preview`, so the preview button is disabled on every row. */
  lemma PreviewButtonAlwaysDisabled(store: Store, caller: Username, i: nat)
    requires i < |ListFiles(store, caller)|
    ensures !PreviewEnabled(ListFiles(store, caller)[i])
  {
    var r := ListFiles(store, caller);
    var vs := Views(store.files, caller);
    assert r[i] in multiset(r);
    assert r[i] in multiset(vs);
  }

  const PreviewRoute: string := "/preview/"

  /** `handleShare`'s link: the page origin, the preview route and the id; it carries no code. */
  function ShareLink(origin: string, id: nat): (link: string)
    ensures StartsWith(link, origin + PreviewRoute)
    ensures forall i :: |origin + PreviewRoute| <= i < |link| ==> IsDigit(link[i])
  {
    origin + PreviewRoute + DecimalText(id)
  }

  /** Different files get different links from the same origin. */
  lemma ShareLinkInjective(origin: string, a: nat, b: nat)
    requires ShareLink(origin, a) == ShareLink(origin, b)
    ensures a == b
  {
    var n := |origin + PreviewRoute|;
    assert ShareLink(origin, a)[n..] == DecimalText(a);
    assert ShareLink(origin, b)[n..] == DecimalText(b);
    DecimalRoundTrip(a);
    DecimalRoundTrip(b);
  }

  // ---------------------------------------------------------------------
  // The download-code dialog
  // ---------------------------------------------------------------------

  /**
    The dialog's state: whether it is open, the file it was opened for
    (kept after closing) and whether submitting previews or downloads.
   */
  datatype Dialog = Dialog(open: bool, fileId: Option<nat>, previewMode: bool)

  /** An open dialog always knows its file. */
  predicate Coherent(d: Dialog) {
    d.open ==> d.fileId.Some?
  }

  /** What a handler starts besides changing the dialog. */
  datatype Action = NoAction | StartDownload(id: nat, code: Option<string>) | StartPreview(id: nat, code: Option<string>)

  datatype Step = Step(dialog: Dialog, action: Action)

  /**
    `handleDownload`: a public entry, or one whose listing carries a code,
    downloads straight away without a code; any other entry opens the
    dialog in download mode.
   */
  function HandleDownload(d: Dialog, v: FileView): (s: Step)
    ensures Coherent(d) ==> Coherent(s.dialog)
    ensures s.action == StartDownload(v.id, None) <==> !v.isPrivate || Filled(v.downloadCode)
    ensures s.action.NoAction? <==> v.isPrivate && !Filled(v.downloadCode)
    ensures s.action.NoAction? ==> s.dialog == Dialog(true, Some(v.id), false)
    ensures !s.action.NoAction? ==> s.dialog == d
  {
    if !v.isPrivate || Filled(v.downloadCode) then Step(d, StartDownload(v.id, None))
    else Step(Dialog(true, Some(v.id), false), NoAction)
  }

  /**
    `handlePreview`: the typed code wins over the listed one; a private file
    with neither opens the dialog in preview mode, anything else requests the
    preview with the chosen code.
   */
  function HandlePreview(d: Dialog, id: nat, isPrivate: bool, listedCode: Option<string>,
                         inputCode: Option<string>): (s: Step)
    ensures Coherent(d) ==> Coherent(s.dialog)
    ensures s.action.NoAction? <==> isPrivate && !Filled(inputCode) && !Filled(listedCode)
    ensures s.action.NoAction? ==> s.dialog == Dialog(true, Some(id), true)
    ensures s.action.StartPreview? ==> s.dialog == d && s.action.id == id
    ensures s.action.StartPreview? && Filled(inputCode) ==> s.action.code == inputCode
    ensures s.action.StartPreview? && !Filled(inputCode) && Filled(listedCode) ==> s.action.code == listedCode
    ensures s.action.StartPreview? && !Filled(inputCode) && !Filled(listedCode) ==> !Filled(s.action.code)
    ensures !s.action.StartDownload?
  {
    var code := if Filled(inputCode) then inputCode else listedCode;
    if isPrivate && !Filled(code) then Step(Dialog(true, Some(id), true), NoAction)
    else Step(d, StartPreview(id, code))
  }

  /**
    `handleDownloadCodeSubmit`: the form rule only demands a non-empty code;
    then the dialog's mode decides between a preview and a download with that
    code, and the dialog closes in download mode.
   */
  function Submit(d: Dialog, input: string): (s: Step)
    requires d.open && Coherent(d)
    ensures !Truthy(input) ==> s == Step(d, NoAction)
    ensures Truthy(input) && d.previewMode ==> s.action == StartPreview(d.fileId.value, Some(input))
    ensures Truthy(input) && !d.previewMode ==> s.action == StartDownload(d.fileId.value, Some(input))
    ensures Truthy(input) ==> s.dialog == Dialog(false, d.fileId, false)
    ensures Coherent(s.dialog)
  {
    if !Truthy(input) then Step(d, NoAction)
    else if d.previewMode then
      var s := HandlePreview(d, d.fileId.value, true, None, Some(input));
      Step(Dialog(false, d.fileId, false), s.action)
    else Step(Dialog(false, d.fileId, false), StartDownload(d.fileId.value, Some(input)))
  }

  /** Cancelling closes the dialog and returns it to download mode. */
  function Cancel(d: Dialog): (d': Dialog)
    ensures !d'.open && !d'.previewMode && d'.fileId == d.fileId
  {
    Dialog(false, d.fileId, false)
  }

  /**
    A code typed into the dialog opened by the download button reaches the
    download flow unchanged; the dialog is closed afterwards.
   */
  lemma DialogForwardsTypedCode(d: Dialog, v: FileView, input: string)
    requires Coherent(d) && v.isPrivate && !Filled(v.downloadCode) && Truthy(input)
    ensures var dlg := HandleDownload(d, v).dialog;
            dlg.open && Submit(dlg, input) == Step(Dialog(false, Some(v.id), false), StartDownload(v.id, Some(input)))
  {
  }

  // ---------------------------------------------------------------------
  // The download flow
  // ---------------------------------------------------------------------

  /** The answer to the info request, whose JSON error body carries the server's `detail`. */
  datatype InfoAnswer = InfoOk | InfoFailed(detail: Option<string>)

  /**
    The answer to the content request: the Content-Disposition header on
    success. The request asks for a Blob, so an error body is a Blob too and
    yields no `detail`.
   */
  datatype ContentAnswer = ContentOk(contentDisposition: Option<string>) | ContentFailed

  datatype Saved = SavedAs(name: string) | DownloadFailed(message: string)

  datatype DownloadRun = DownloadRun(sent: seq<Request>, result: Saved)

  const DownloadFailure: string := "\U{6587}\U{4EF6}\U{4E0B}\U{8F7D}\U{5931}\U{8D25}"

  /** `files?.find(f => f.id === fileId)?.filename`: the name of the first entry with the id. */
  function ListedName(files: Option<seq<FileView>>, id: nat): (r: Option<string>)
    ensures r.None? <==> files.None? || forall i :: 0 <= i < |files.value| ==> files.value[i].id != id
    ensures r.Some? ==> exists i :: 0 <= i < |files.value| && files.value[i].id == id && files.value[i].filename == r.value
    decreases if files.Some? then |files.value| else 0
  {
    if files.None? then None
    else if |files.value| == 0 then None
    else if files.value[0].id == id then Some(files.value[0].filename)
    else
      var rest := ListedName(Some(files.value[1..]), id);
      assert forall i :: 1 <= i < |files.value| ==> files.value[i] == files.value[1..][i - 1];
      rest
  }

  /**
    `downloadFile`: first the file's info resource, then, only if that
    succeeded, the content with the same code and headers; the file is saved
    under the name from the response header, else the listed name, else
    `unknown_file`. A failed info request shows the server's `detail` or a
    fixed text; a failed content request shows the fixed text.
   */
  function DownloadFlow(id: nat, code: Option<string>, token: Option<string>, files: Option<seq<FileView>>,
                        info: InfoAnswer, content: ContentAnswer): (run: DownloadRun)
    ensures 1 <= |run.sent| <= 2
    ensures run.sent[0] == ApiFileRequest(id, FileInfo, code, token)
    ensures |run.sent| == 2 <==> info.InfoOk?
    ensures |run.sent| == 2 ==> run.sent[1] == ApiFileRequest(id, FileContent, code, token)
    ensures run.result.SavedAs? <==> info.InfoOk? && content.ContentOk?
    ensures info.InfoFailed? ==> run.result == DownloadFailed(PreviewComponent.OrElse(info.detail, DownloadFailure))
    ensures info.InfoOk? && content.ContentFailed? ==> run.result == DownloadFailed(DownloadFailure)
    ensures info.InfoOk? && content.ContentOk? && !Filled(content.contentDisposition) ==>
      run.result.name == ListedName(files, id).GetOr("unknown_file")
    ensures info.InfoOk? && content.ContentOk? ==>
      run.result.name == Disposition.HomePageFilename(content.contentDisposition, ListedName(files, id))
  {
    var infoRequest := ApiFileRequest(id, FileInfo, code, token);
    match info
    case InfoFailed(detail) => DownloadRun([infoRequest], DownloadFailed(PreviewComponent.OrElse(detail, DownloadFailure)))
    case InfoOk =>
      var sent := [infoRequest, ApiFileRequest(id, FileContent, code, token)];
      match content
      case ContentFailed => DownloadRun(sent, DownloadFailed(DownloadFailure))
      case ContentOk(header) => DownloadRun(sent, SavedAs(Disposition.HomePageFilename(header, ListedName(files, id))))
  }

  /**
    A download whose response names the file in an RFC 5987 extended
    parameter is saved under exactly that name, whatever the listing says.
   */
  lemma {:induction false} DownloadSavesHeaderName(id: nat, code: Option<string>, token: Option<string>,
                                                   files: Option<seq<FileView>>, name: string)
    requires |name| > 0
    ensures var header := Disposition.Attachment + Disposition.ExtendedPrefix + Percent.PercentEncode(name);
      DownloadFlow(id, code, token, files, InfoOk, ContentOk(Some(header))).result == SavedAs(name)
  {
    Disposition.ExtendedRoundTrip(name, "download", ListedName(files, id));
  }

  // ---------------------------------------------------------------------
  // The preview flow
  // ---------------------------------------------------------------------

  datatype HomeShown = HomeHtml(html: string) | HomeText(text: string) | HomeImage | HomePdf

  datatype HomePreview = HomePreview(shown: Option<HomeShown>, toast: Option<string>)

  const PreviewFailure: string := "\U{6587}\U{4EF6}\U{9884}\U{89C8}\U{5931}\U{8D25}"

  /**
    What `handlePreview` shows for an answer. `read` is the single UTF-8
    `readAsText` result (none when the reader fails, in which case nothing is
    shown and nothing is reported). A response without a Content-Type makes
    `startsWith` throw, which ends in the generic failure message; a type no
    branch handles shows nothing. Every failure shows the fixed text: the
    request asks for a Blob, so an error body has no `detail` to show.
   */
  function HomePreviewOutcome(reply: PreviewComponent.Reply, read: Option<string>): (o: HomePreview)
    ensures o.toast.Some? <==> reply.Rejected? || reply.contentType.None?
    ensures o.shown.Some? ==> o.toast.None? && reply.Delivered?
    ensures o.toast.Some? ==> o.toast == Some(PreviewFailure)
    ensures o.shown.Some? && o.shown.value.HomeHtml? ==>
      read == Some(o.shown.value.html) && HomePageShowsHtml(reply.contentType.value, o.shown.value.html)
    ensures o.shown.Some? && o.shown.value.HomeText? ==>
      read == Some(o.shown.value.text) && !HomePageShowsHtml(reply.contentType.value, o.shown.value.text)
    ensures reply.Delivered? && HomePageRoute(reply.contentType) == Some(ShowImage) ==> o.shown == Some(HomeImage)
    ensures reply.Delivered? && HomePageRoute(reply.contentType) == Some(ShowPdf) ==> o.shown == Some(HomePdf)
    ensures reply.Delivered? && HomePageRoute(reply.contentType) == Some(ReadAsText) ==> (o.shown.Some? <==> read.Some?)
    ensures reply.Delivered? && HomePageRoute(reply.contentType) == Some(ShowNothing) ==> o == HomePreview(None, None)
  {
    match reply
    case Rejected(_) => HomePreview(None, Some(PreviewFailure))
    case Delivered(contentType) =>
      var route := HomePageRoute(contentType);
      if route.None? then HomePreview(None, Some(PreviewFailure))
      else if route.value == ReadAsText then
        if read.None? then HomePreview(None, None)
        else if HomePageShowsHtml(contentType.value, read.value) then HomePreview(Some(HomeHtml(read.value)), None)
        else HomePreview(Some(HomeText(read.value)), None)
      else if route.value == ShowImage then HomePreview(Some(HomeImage), None)
      else if route.value == ShowPdf then HomePreview(Some(HomePdf), None)
      else HomePreview(None, None)
  }

  /** A plain-text file whose content starts (after whitespace) with the HTML doctype is framed as HTML. */
  lemma SniffedPlainTextIsFramed(content: string)
    requires LooksLikeHtml(content)
    ensures HomePreviewOutcome(PreviewComponent.Delivered(Some(TextPlain)), Some(content)).shown == Some(HomeHtml(content))
  {
  }

  /** An HTML response is framed whatever its content looks like. */
  lemma HtmlTypeAlwaysFramed(content: string)
    ensures HomePreviewOutcome(PreviewComponent.Delivered(Some(TextHtml)), Some(content)).shown == Some(HomeHtml(content))
  {
  }
}

=== FILE: journeys.dfy ===
/**
  Journeys that cross the client and the server: an upload from the form to
  the stored row, the list page's download button against the download
  endpoint, the share page's requests against authentication, and the
  short-code discrepancy between the upload form and the share page's dialog.
 */
module Journeys {
  import opened Wrappers
  import opened Text
  import opened Records
  import opened Auth
  import opened Server
  import opened Requests
  import HomePage
  import PreviewPage

  /** With distinct ids, looking a row's id up finds that very row. */
  lemma FindsTheRow(store: Store, i: nat)
    requires StoreInvariant(store) && i < |store.files|
    ensures FindFile(store.files, store.files[i].id) == Some(store.files[i])
  {
    var r := FindFile(store.files, store.files[i].id);
    var j :| 0 <= j < |store.files| && store.files[j] == r.value;
    assert j == i;
  }

  /**
    The list page downloads without asking for a code exactly when the
    download endpoint serves the signed-in user without one: the listing
    reveals the code of the user's own private files only, and the owner
    needs no code.
   */
  lemma DirectDownloadIsServed(store: Store, caller: Username, i: nat, d: HomePage.Dialog)
    requires StoreInvariant(store) && i < |store.files|
    ensures var f := store.files[i];
      HomePage.HandleDownload(d, View(f, caller)).action.StartDownload?
      <==> DownloadFile(store, f.id, None, caller).Served?
  {
    FindsTheRow(store, i);
    assert CodeMatchesVisibility(store.files[i]);
  }

  /**
    For someone else's private file the list page asks for the code, and
    typing the stored code downloads the file.
   */
  lemma DialogCodeUnlocksDownload(store: Store, caller: Username, i: nat, d: HomePage.Dialog, input: string)
    requires StoreInvariant(store) && i < |store.files| && HomePage.Coherent(d)
    requires store.files[i].isPrivate && store.files[i].owner != caller
    requires store.files[i].downloadCode == Some(input)
    ensures var f := store.files[i];
      var s := HomePage.HandleDownload(d, View(f, caller));
      s.action.NoAction? && s.dialog.open
      && HomePage.Submit(s.dialog, input).action == HomePage.StartDownload(f.id, Some(input))
      && DownloadFile(store, f.id, Some(input), caller) == Served(f)
  {
    FindsTheRow(store, i);
    assert CodeMatchesVisibility(store.files[i]);
  }

  /**
    The share page's requests carry no bearer token, so the download endpoint
    answers every one of them with a 401 before looking at the file or the code.
   */
  lemma SharePageIsUnauthenticated(sessions: Sessions, decode: Token -> Option<Claims>, store: Store,
                                   id: nat, code: Option<string>)
    ensures var r := PreviewPage.PageRequest(id, FileContent, code);
      DownloadEndpoint(sessions, BearerToken(r.headers), decode, store, id, ReadTarget(r.target).1).NotAuthenticated?
  {
  }

  /**
    An upload from the list page's form: the row stores the typed code, of
    whatever length, for a private file with a typed code, a generated
    four-digit code for a private file without one, and no code for a public
    file, whatever was left in the code input.
   */
  lemma FormUploadStoresCode(store: Store, filename: string, isPrivate: bool, typedCode: string,
                             user: Username, now: int, picks: seq<nat>)
    requires ValidPicks(picks) && Extension(filename) in AllowedExtensions
    ensures var (p, code) := ServerUploadParameters(HomePage.HomeUploadFields(isPrivate, typedCode));
      var r := Upload(store, filename, p, code, user, now, picks);
      r.Uploaded?
      && var f := r.store.files[|store.files|];
         f.isPrivate == isPrivate
         && (!isPrivate ==> f.downloadCode.None?)
         && (isPrivate && Truthy(typedCode) ==> f.downloadCode == Some(typedCode))
         && (isPrivate && !Truthy(typedCode) ==> IsFourDigitCode(f.downloadCode.value))
  {
    HomePage.HomeUploadFieldsRoundTrip(isPrivate, typedCode);
  }

  /** A public upload through the API client that still sends a code stores none. */
  lemma PublicUploadDropsCode(store: Store, filename: string, code: string,
                              user: Username, now: int, picks: seq<nat>)
    requires ValidPicks(picks) && Extension(filename) in AllowedExtensions && Truthy(code)
    ensures var fields := UploadFields(false, Some(code));
      FormField("download_code", code) in fields
      && var (p, c) := ServerUploadParameters(fields);
         var r := Upload(store, filename, p, c, user, now, picks);
         r.Uploaded? && r.store.files[|store.files|].downloadCode.None?
  {
    UploadFieldsRoundTrip(false, Some(code));
  }

  // ---------------------------------------------------------------------
  // Short download codes
  // ---------------------------------------------------------------------

  /** A code the upload form lets through: its input caps the length at four but sets no minimum. */
  const ShortCode: string := "12"

  /**
    As written: the form sends a two-character code, `upload_file` stores it
    without a length check, and then no code the share page's dialog accepts
    opens the file for anyone but its uploader.
   */
  lemma ShortCodeLocksOutSharePage(store: Store, filename: string, user: Username, other: Username,
                                   now: int, picks: seq<nat>, input: string)
    requires ValidPicks(picks) && Extension(filename) in AllowedExtensions && other != user
    requires PreviewPage.DialogAccepts(input)
    ensures ServerUploadParameters(HomePage.HomeUploadFields(true, ShortCode)) == (true, Some(ShortCode))
    ensures var r := Upload(store, filename, true, Some(ShortCode), user, now, picks);
      r.Uploaded?
      && var f := r.store.files[|store.files|];
         f.downloadCode == Some(ShortCode)
         && CheckFileAccess(Some(other), f, Some(input)) == Denied(403)
  {
    HomePage.HomeUploadFieldsRoundTrip(true, ShortCode);
    var r := Upload(store, filename, true, Some(ShortCode), user, now, picks);
    var f := r.store.files[|store.files|];
    assert Some(input) != f.downloadCode by {
      assert |input| != |ShortCode|;
    }
  }

  /**
    Corrected: with the length check on upload, every private file ends up
    with a code the share page's dialog accepts, and that code passes the
    access check for every other signed-in user. The share page itself still
    sends no bearer token (`SharePageIsUnauthenticated`).
   */
  lemma CheckedUploadCodesFitShareDialog(store: Store, filename: string, isPrivate: bool, typedCode: string,
                                      user: Username, other: Username, now: int, picks: seq<nat>)
    requires ValidPicks(picks)
    ensures var (p, code) := ServerUploadParameters(HomePage.HomeUploadFields(isPrivate, typedCode));
      var r := CheckedUpload(store, filename, p, code, user, now, picks);
      r.Uploaded? && isPrivate ==>
        var f := r.store.files[|store.files|];
        PreviewPage.DialogAccepts(f.downloadCode.value)
        && CheckFileAccess(Some(other), f, f.downloadCode) == Allowed
  {
    HomePage.HomeUploadFieldsRoundTrip(isPrivate, typedCode);
  }
}

=== FILE: percent.dfy ===
/**
  Percent-decoding as ECMAScript's `decodeURIComponent` performs it
  (section 19.2.6 of ECMA-262, URI Handling Functions): `%XY` escapes as in
  section 2.1 of RFC 3986, multi-octet escapes validated as UTF-8 per
  section 4 of RFC 3629, and a URIError, here `None`, on anything malformed.
  `PercentEncode` is `encodeURIComponent`, the independent partner that the
  round-trip lemma is stated against.
 */
module Percent {
  import opened Wrappers

  type Byte = b: int | 0 <= b < 256

  predicate IsHexDigit(c: char) {
    ('0' <= c <= '9') || ('A' <= c <= 'F') || ('a' <= c <= 'f')
  }

  function HexValue(c: char): (d: nat)
    requires IsHexDigit(c)
    ensures d < 16
  {
    if '0' <= c <= '9' then c as int - '0' as int
    else if 'A' <= c <= 'F' then c as int - 'A' as int + 10
    else c as int - 'a' as int + 10
  }

  /** The upper-case hexadecimal digit `encodeURIComponent` writes. */
  function HexUpper(d: nat): (c: char)
    requires d < 16
    ensures IsHexDigit(c) && HexValue(c) == d
  {
    if d < 10 then ('0' as int + d) as char else ('A' as int + d - 10) as char
  }

  /** `s` starts with a complete escape `%XY`. */
  predicate StartsWithEscape(s: string) {
    |s| >= 3 && s[0] == '%' && IsHexDigit(s[1]) && IsHexDigit(s[2])
  }

  function EscapeByte(s: string): Byte
    requires StartsWithEscape(s)
  {
    16 * HexValue(s[1]) + HexValue(s[2])
  }

  /** Reads `count` consecutive escapes from the front of `s`. */
  function ReadEscapes(s: string, count: nat): (r: Option<seq<Byte>>)
    ensures r.Some? ==> |r.value| == count && 3 * count <= |s|
    decreases count
  {
    if count == 0 then Some([])
    else if !StartsWithEscape(s) then None
    else match ReadEscapes(s[3..], count - 1)
      case None => None
      case Some(rest) => Some([EscapeByte(s)] + rest)
  }

  /** Number of leading 1 bits of an octet. */
  function LeadingOnes(b: Byte): nat {
    if b < 0x80 then 0 else if b < 0xC0 then 1 else if b < 0xE0 then 2
    else if b < 0xF0 then 3 else if b < 0xF8 then 4 else if b < 0xFC then 5
    else if b < 0xFE then 6 else if b < 0xFF then 7 else 8
  }

  /** A Unicode scalar value: a code point that is not a surrogate. */
  predicate IsScalar(v: int) {
    (0 <= v < 0xD800) || (0xE000 <= v < 0x110000)
  }

  predicate IsContinuation(b: Byte) {
    0x80 <= b < 0xC0
  }

  /**
    The code point a 2-, 3- or 4-octet UTF-8 sequence encodes, when the
    sequence is a valid encoding under section 4 of RFC 3629: continuation
    octets of the form 10xxxxxx, no overlong form, no surrogate, nothing
    above U+10FFFF. The lead octet's class is fixed by the caller.
   */
  function Utf8Value(o: seq<Byte>): (r: Option<int>)
    requires 2 <= |o| <= 4 && LeadingOnes(o[0]) == |o|
    ensures r.Some? ==> IsScalar(r.value) && r.value >= 0x80
  {
    if exists j :: 1 <= j < |o| && !IsContinuation(o[j]) then None
    else
      var b0, b1: int := o[0], o[1];
      if |o| == 2 then
        var v := (b0 - 0xC0) * 64 + (b1 - 0x80);
        if v >= 0x80 then Some(v) else None
      else
        var b2: int := o[2];
        if |o| == 3 then
          var v := (b0 - 0xE0) * 4096 + (b1 - 0x80) * 64 + (b2 - 0x80);
          if v >= 0x800 && IsScalar(v) then Some(v) else None
        else
          var b3: int := o[3];
          var v := (b0 - 0xF0) * 262144 + (b1 - 0x80) * 4096 + (b2 - 0x80) * 64 + (b3 - 0x80);
          if 0x10000 <= v < 0x110000 then Some(v) else None
  }

  function Prepend(c: char, r: Option<string>): (r': Option<string>)
    ensures r'.Some? <==> r.Some?
    ensures r'.Some? ==> r'.value == [c] + r.value
  {
    match r
    case None => None
    case Some(t) => Some([c] + t)
  }

  /**
    `decodeURIComponent(s)`: `None` where ECMAScript throws a URIError.
    Characters other than `%` are copied; an escape below 0x80 becomes that
    character; a lead escape with n leading one bits (n in 2..4) must be
    followed by n-1 further escapes that together form valid UTF-8.
   */
  function PercentDecode(s: string): (r: Option<string>)
    ensures r.Some? ==> |r.value| <= |s|
    ensures r.Some? && |s| > 0 ==> |r.value| > 0
    ensures (forall i :: 0 <= i < |s| ==> s[i] != '%') ==> r == Some(s)
    decreases |s|
  {
    if |s| == 0 then Some([])
    else if s[0] != '%' then
      assert [s[0]] + s[1..] == s;
      Prepend(s[0], PercentDecode(s[1..]))
    else if !StartsWithEscape(s) then None
    else
      var b := EscapeByte(s);
      if b < 0x80 then Prepend(b as char, PercentDecode(s[3..]))
      else
        var n := LeadingOnes(b);
        if n == 1 || n > 4 then None
        else match ReadEscapes(s, n)
          case None => None
          case Some(octets) =>
            match Utf8Value(octets)
            case None => None
            case Some(v) => Prepend(v as char, PercentDecode(s[3 * n..]))
  }

  /** Every `%` inside `count` escapes read successfully starts a complete escape. */
  lemma {:induction false} ReadEscapesAreComplete(s: string, count: nat, i: nat)
    requires ReadEscapes(s, count).Some? && i < 3 * count && s[i] == '%'
    ensures StartsWithEscape(s[i..])
    decreases count
  {
    if i >= 3 {
      assert s[3..][i - 3..] == s[i..];
      ReadEscapesAreComplete(s[3..], count - 1, i - 3);
    }
  }

  /**
    A `%` that does not begin a complete escape makes `decodeURIComponent`
    throw, wherever it stands: no escape or character before it can consume
    it.
   */
  lemma {:induction false} IncompleteEscapeFails(s: string, i: nat)
    requires i < |s| && s[i] == '%' && !StartsWithEscape(s[i..])
    ensures PercentDecode(s) == None
    decreases |s|
  {
    if s[0] != '%' {
      assert s[1..][i - 1..] == s[i..];
      IncompleteEscapeFails(s[1..], i - 1);
    } else if StartsWithEscape(s) {
      var b := EscapeByte(s);
      if b < 0x80 {
        assert s[3..][i - 3..] == s[i..];
        IncompleteEscapeFails(s[3..], i - 3);
      } else {
        var n := LeadingOnes(b);
        if 2 <= n <= 4 && ReadEscapes(s, n).Some? && Utf8Value(ReadEscapes(s, n).value).Some? {
          if i < 3 * n {
            ReadEscapesAreComplete(s, n, i);
            assert false;
          }
          assert s[3 * n..][i - 3 * n..] == s[i..];
          IncompleteEscapeFails(s[3 * n..], i - 3 * n);
        }
      }
    }
  }

  /** Escapes that read successfully read the same with anything appended. */
  lemma {:induction false} ReadEscapesAppend(a: string, b: string, count: nat)
    requires ReadEscapes(a, count).Some?
    ensures ReadEscapes(a + b, count) == ReadEscapes(a, count)
    decreases count
  {
    if count > 0 {
      assert (a + b)[..3] == a[..3];
      assert (a + b)[3..] == a[3..] + b;
      ReadEscapesAppend(a[3..], b, count - 1);
    }
  }

  /** `prefix` followed by the decoded text, or the failure. */
  function After(prefix: string, r: Option<string>): (r': Option<string>)
    ensures r'.Some? <==> r.Some?
    ensures r'.Some? ==> r'.value == prefix + r.value
  {
    match r
    case None => None
    case Some(t) => Some(prefix + t)
  }

  lemma PrependAfter(c: char, x: string, r: Option<string>)
    ensures Prepend(c, After(x, r)) == After([c] + x, r)
  {
    if r.Some? {
      assert [c] + (x + r.value) == ([c] + x) + r.value;
    }
  }

  /** The first step of decoding `a + b` when `a` starts with a character other than `%`. */
  lemma UnfoldPlain(a: string, b: string)
    requires |a| > 0 && a[0] != '%'
    ensures PercentDecode(a) == Prepend(a[0], PercentDecode(a[1..]))
    ensures PercentDecode(a + b) == Prepend(a[0], PercentDecode(a[1..] + b))
  {
    assert (a + b)[0] == a[0] && (a + b)[1..] == a[1..] + b;
  }

  /** The first step of decoding `a + b` when `a` starts with an escape below 0x80. */
  lemma UnfoldAscii(a: string, b: string)
    requires StartsWithEscape(a) && EscapeByte(a) < 0x80
    ensures PercentDecode(a) == Prepend(EscapeByte(a) as char, PercentDecode(a[3..]))
    ensures PercentDecode(a + b) == Prepend(EscapeByte(a) as char, PercentDecode(a[3..] + b))
  {
    assert (a + b)[..3] == a[..3];
    assert (a + b)[3..] == a[3..] + b;
  }

  /** The first step of decoding `a + b` when `a` starts with a valid multi-octet sequence. */
  lemma UnfoldMulti(a: string, b: string) returns (c: char, k: nat)
    requires PercentDecode(a).Some? && StartsWithEscape(a) && EscapeByte(a) >= 0x80
    ensures 0 < k <= |a|
    ensures PercentDecode(a) == Prepend(c, PercentDecode(a[k..]))
    ensures PercentDecode(a + b) == Prepend(c, PercentDecode(a[k..] + b))
  {
    assert (a + b)[..3] == a[..3];
    var n := LeadingOnes(EscapeByte(a));
    ReadEscapesAppend(a, b, n);
    k := 3 * n;
    c := Utf8Value(ReadEscapes(a, n).value).value as char;
    assert (a + b)[k..] == a[k..] + b;
  }

  /** A decoding step that prepends `c` on both sides keeps the composition. */
  lemma StepKeepsAppend(a: string, b: string, c: char, k: nat)
    requires 0 < k <= |a|
    requires PercentDecode(a) == Prepend(c, PercentDecode(a[k..]))
    requires PercentDecode(a + b) == Prepend(c, PercentDecode(a[k..] + b))
    requires PercentDecode(a[k..]).Some?
    requires PercentDecode(a[k..] + b) == After(PercentDecode(a[k..]).value, PercentDecode(b))
    ensures PercentDecode(a + b) == After(PercentDecode(a).value, PercentDecode(b))
  {
    PrependAfter(c, PercentDecode(a[k..]).value, PercentDecode(b));
  }

  /**
    Decoding is compositional after a prefix that decodes: the prefix's
    steps never reach past it, so the rest is decoded on its own and a
    failure there is a failure of the whole.
   */
  lemma {:induction false} DecodeAppend(a: string, b: string)
    requires PercentDecode(a).Some?
    ensures PercentDecode(a + b) == After(PercentDecode(a).value, PercentDecode(b))
    decreases |a|
  {
    if |a| == 0 {
      assert a + b == b;
      if PercentDecode(b).Some? {
        assert PercentDecode(a).value + PercentDecode(b).value == PercentDecode(b).value;
      }
    } else {
      var c: char, k: nat;
      if a[0] != '%' {
        UnfoldPlain(a, b);
        c, k := a[0], 1;
      } else if EscapeByte(a) < 0x80 {
        UnfoldAscii(a, b);
        c, k := EscapeByte(a) as char, 3;
      } else {
        c, k := UnfoldMulti(a, b);
      }
      DecodeAppend(a[k..], b);
      StepKeepsAppend(a, b, c, k);
    }
  }

  /**
    After any prefix that decodes, an escape of a continuation octet
    (0x80-0xBF) or of an octet no UTF-8 sequence starts with (0xF8-0xFF)
    makes `decodeURIComponent` throw.
   */
  lemma BadLeadOctetFails(a: string, b: string)
    requires PercentDecode(a).Some? && StartsWithEscape(b)
    requires IsContinuation(EscapeByte(b)) || EscapeByte(b) >= 0xF8
    ensures PercentDecode(a + b) == None
  {
    DecodeAppend(a, b);
  }

  /** The UTF-8 encoding of a scalar value (section 3 of RFC 3629). */
  function Utf8Encode(v: int): (o: seq<Byte>)
    requires IsScalar(v)
    ensures 1 <= |o| <= 4
    ensures v < 0x80 <==> |o| == 1
  {
    if v < 0x80 then [v]
    else if v < 0x800 then [0xC0 + v / 64, 0x80 + v % 64]
    else if v < 0x10000 then [0xE0 + v / 4096, 0x80 + (v / 64) % 64, 0x80 + v % 64]
    else [0xF0 + v / 262144, 0x80 + (v / 4096) % 64, 0x80 + (v / 64) % 64, 0x80 + v % 64]
  }

  /** The characters `encodeURIComponent` leaves unescaped. */
  predicate IsUnreserved(c: char) {
    || ('A' <= c <= 'Z') || ('a' <= c <= 'z') || ('0' <= c <= '9')
    || c == '-' || c == '_' || c == '.' || c == '!' || c == '~' || c == '*'
    || c == '\'' || c == '(' || c == ')'
  }

  function EscapeOctets(o: seq<Byte>): (r: string)
    ensures |r| == 3 * |o|
  {
    if |o| == 0 then [] else ['%', HexUpper(o[0] / 16), HexUpper(o[0] % 16)] + EscapeOctets(o[1..])
  }

  function EncodeChar(c: char): string {
    if IsUnreserved(c) then [c] else EscapeOctets(Utf8Encode(c as int))
  }

  /** `encodeURIComponent(s)`. */
  function PercentEncode(s: string): (r: string)
    ensures |r| >= |s|
  {
    if |s| == 0 then [] else EncodeChar(s[0]) + PercentEncode(s[1..])
  }

  /** Reading back escaped octets yields the octets. */
  lemma {:induction false} ReadEscapedOctets(o: seq<Byte>, rest: string)
    ensures ReadEscapes(EscapeOctets(o) + rest, |o|) == Some(o)
    decreases |o|
  {
    if |o| > 0 {
      var s := EscapeOctets(o) + rest;
      assert s[..3] == ['%', HexUpper(o[0] / 16), HexUpper(o[0] % 16)];
      assert EscapeByte(s) == o[0];
      assert s[3..] == EscapeOctets(o[1..]) + rest;
      ReadEscapedOctets(o[1..], rest);
      assert [o[0]] + o[1..] == o;
    }
  }

  lemma Utf8RoundTrip2(v: int)
    requires 0x80 <= v < 0x800
    ensures Utf8Value([0xC0 + v / 64, 0x80 + v % 64]) == Some(v)
  {
    var o: seq<Byte> := [0xC0 + v / 64, 0x80 + v % 64];
    assert IsContinuation(o[1]);
    assert (o[0] as int - 0xC0) * 64 + (o[1] as int - 0x80) == v;
  }

  lemma Utf8RoundTrip3(v: int)
    requires 0x800 <= v < 0x10000 && IsScalar(v)
    ensures Utf8Value([0xE0 + v / 4096, 0x80 + (v / 64) % 64, 0x80 + v % 64]) == Some(v)
  {
    var o: seq<Byte> := [0xE0 + v / 4096, 0x80 + (v / 64) % 64, 0x80 + v % 64];
    assert IsContinuation(o[1]) && IsContinuation(o[2]);
    assert v / 64 == (v / 4096) * 64 + (v / 64) % 64;
    assert (o[0] as int - 0xE0) * 4096 + (o[1] as int - 0x80) * 64 + (o[2] as int - 0x80) == v;
  }

  lemma Utf8RoundTrip4(v: int)
    requires 0x10000 <= v < 0x110000
    ensures Utf8Value([0xF0 + v / 262144, 0x80 + (v / 4096) % 64, 0x80 + (v / 64) % 64, 0x80 + v % 64]) == Some(v)
  {
    var o: seq<Byte> := [0xF0 + v / 262144, 0x80 + (v / 4096) % 64, 0x80 + (v / 64) % 64, 0x80 + v % 64];
    assert IsContinuation(o[1]) && IsContinuation(o[2]) && IsContinuation(o[3]);
    assert v / 64 == (v / 4096) * 64 + (v / 64) % 64;
    assert v / 4096 == (v / 262144) * 64 + (v / 4096) % 64;
    assert (o[0] as int - 0xF0) * 262144 + (o[1] as int - 0x80) * 4096 + (o[2] as int - 0x80) * 64 + (o[3] as int - 0x80) == v;
  }

  /** UTF-8 decoding inverts UTF-8 encoding for every non-ASCII scalar value. */
  lemma Utf8RoundTrip(v: int)
    requires IsScalar(v) && v >= 0x80
    ensures var o := Utf8Encode(v); 2 <= |o| <= 4 && LeadingOnes(o[0]) == |o| && Utf8Value(o) == Some(v)
  {
    if v < 0x800 {
      Utf8RoundTrip2(v);
    } else if v < 0x10000 {
      Utf8RoundTrip3(v);
    } else {
      Utf8RoundTrip4(v);
    }
  }

  /** Decoding one encoded character gives it back in front of the decoded rest. */
  lemma DecodeEncodedChar(c: char, rest: string)
    ensures PercentDecode(EncodeChar(c) + rest) == Prepend(c, PercentDecode(rest))
  {
    var s := EncodeChar(c) + rest;
    if IsUnreserved(c) {
      assert s[0] == c && s[1..] == rest;
    } else {
      var o := Utf8Encode(c as int);
      ReadEscapedOctets(o, rest);
      assert s[..3] == ['%', HexUpper(o[0] / 16), HexUpper(o[0] % 16)];
      assert EscapeByte(s) == o[0];
      assert s[3 * |o|..] == rest;
      if c as int >= 0x80 {
        Utf8RoundTrip(c as int);
      }
    }
  }

  /** `decodeURIComponent(encodeURIComponent(s)) == s` for every string. */
  lemma {:induction false} DecodeEncode(s: string)
    ensures PercentDecode(PercentEncode(s)) == Some(s)
    decreases |s|
  {
    if |s| > 0 {
      DecodeEncodedChar(s[0], PercentEncode(s[1..]));
      DecodeEncode(s[1..]);
      assert [s[0]] + s[1..] == s;
    }
  }

  /** Every character `encodeURIComponent` emits is unreserved or a `%`; digits of an escape are unreserved. */
  lemma {:induction false} EncodedAlphabet(s: string)
    ensures forall i :: 0 <= i < |PercentEncode(s)| ==> IsUnreserved(PercentEncode(s)[i]) || PercentEncode(s)[i] == '%'
    decreases |s|
  {
    if |s| > 0 {
      EncodedAlphabet(s[1..]);
      var c := s[0];
      if !IsUnreserved(c) {
        EscapedAlphabet(Utf8Encode(c as int));
      }
    }
  }

  lemma {:induction false} EscapedAlphabet(o: seq<Byte>)
    ensures forall i :: 0 <= i < |EscapeOctets(o)| ==> IsUnreserved(EscapeOctets(o)[i]) || EscapeOctets(o)[i] == '%'
    decreases |o|
  {
    if |o| > 0 {
      EscapedAlphabet(o[1..]);
    }
  }
}

=== FILE: previewpage.dfy ===
/**
  The public share page (pages/PreviewPage.jsx) reached through a share link
  `/preview/<id>`, optionally with `?download_code=`: the code it remembers,
  when its two buttons open the code dialog instead of requesting, the
  four-character rule of that dialog, and what each answer leaves behind.
 */
module PreviewPage {
  import opened Wrappers
  import opened Text
  import opened Requests
  import Disposition

  /**
    The page's state: whether the code dialog is open, whether the last
    button pressed was the preview one, and the remembered code (`''` when
    there is none).
   */
  datatype Page = Page(dialogOpen: bool, previewMode: bool, savedCode: string)

  /** The page as it mounts: the query's code, or none. */
  function Init(queryCode: Option<string>): (p: Page)
    ensures !p.dialogOpen && !p.previewMode
    ensures Filled(queryCode) <==> Truthy(p.savedCode)
    ensures Filled(queryCode) ==> p.savedCode == queryCode.value
  {
    Page(false, false, queryCode.GetOr(""))
  }

  /**
    The page's requests: the API client's targets, sent with plain axios and
    therefore with no Authorization header whether or not anyone is signed in.
   */
  function PageRequest(id: nat, resource: Resource, code: Option<string>): (r: Request)
    ensures r.headers == map[]
    ensures ReadTarget(r.target) == (ApiBase + ResourcePath(id, resource), if Filled(code) then code else None)
  {
    var r := ApiFileRequest(id, resource, code, None);
    assert r.headers.Keys <= {Authorization} && Authorization !in r.headers;
    assert r.headers == map[];
    r
  }

  const NotFoundMessage: string := "\U{6587}\U{4EF6}\U{4E0D}\U{5B58}\U{5728}\U{6216}\U{5DF2}\U{88AB}\U{5220}\U{9664}"
  const InfoFailure: string := "\U{83B7}\U{53D6}\U{6587}\U{4EF6}\U{4FE1}\U{606F}\U{5931}\U{8D25}"
  const PreviewFailure: string := "\U{6587}\U{4EF6}\U{9884}\U{89C8}\U{5931}\U{8D25}"
  const DownloadFailure: string := "\U{6587}\U{4EF6}\U{4E0B}\U{8F7D}\U{5931}\U{8D25}"
  const DownloadSuccess: string := "\U{6587}\U{4EF6}\U{4E0B}\U{8F7D}\U{6210}\U{529F}"
  const CodeCleared: string := "\U{5DF2}\U{6E05}\U{9664}\U{4E0B}\U{8F7D}\U{7801}"

  /** The info request on mount never carries the code, even one from the query. */
  function InfoRequest(id: nat): (r: Request)
    ensures r == PageRequest(id, FileInfo, None)
    ensures ReadTarget(r.target).1.None?
  {
    PageRequest(id, FileInfo, None)
  }

  /** The error shown instead of the page when the info request fails. */
  function InfoError(status: Option<nat>): (message: string)
    ensures message == NotFoundMessage <==> status == Some(404)
    ensures message != NotFoundMessage ==> message == InfoFailure
  {
    if status == Some(404) then NotFoundMessage else InfoFailure
  }

  /** The answer to a preview or download request. */
  datatype Answer = Answered(contentType: Option<string>, contentDisposition: Option<string>) | FailedWith(status: Option<nat>)

  /** One user action's result: the new state, the request sent, a toast, and the name a download was saved under. */
  datatype Turn = Turn(page: Page, sent: Option<Request>, toast: Option<string>, savedAs: Option<string>)

  /**
    `handlePreview` (when `preview`) or `handleDownload`: the typed code, else
    the remembered one, is sent and remembered before the answer is known. A
    403 reopens the dialog; any other failure is a fixed message. A download
    is saved under the name read from Content-Disposition, and a name that
    does not percent-decode fails the download. A preview without a
    Content-Type fails when its type is inspected.
   */
  function Attempt(p: Page, id: nat, preview: bool, input: Option<string>, answer: Answer): (t: Turn)
    ensures var code := if Filled(input) then input.value else p.savedCode;
      t.page.savedCode == code
      && t.sent == Some(PageRequest(id, if preview then FilePreview else FileContent, if Truthy(code) then Some(code) else None))
    ensures t.page.previewMode == p.previewMode
    ensures t.page.dialogOpen <==> p.dialogOpen || answer == FailedWith(Some(403))
    ensures answer == FailedWith(Some(403)) ==> t.toast.None?
    ensures answer.FailedWith? && answer.status != Some(403) ==>
      t.toast == Some(if preview then PreviewFailure else DownloadFailure)
    ensures t.savedAs.Some? <==> !preview && answer.Answered? && Disposition.PreviewPageFilename(answer.contentDisposition).Some?
    ensures t.savedAs.Some? ==> t.savedAs == Disposition.PreviewPageFilename(answer.contentDisposition) && t.toast == Some(DownloadSuccess)
    ensures !preview && answer.Answered? && t.savedAs.None? ==> t.toast == Some(DownloadFailure)
    ensures preview && answer.Answered? ==>
      t.toast == (if answer.contentType.None? then Some(PreviewFailure) else None)
  {
    var code := if Filled(input) then input.value else p.savedCode;
    var page := p.(savedCode := code);
    var sent := Some(PageRequest(id, if preview then FilePreview else FileContent, if Truthy(code) then Some(code) else None));
    match answer
    case FailedWith(status) =>
      if status == Some(403) then Turn(page.(dialogOpen := true), sent, None, None)
      else Turn(page, sent, Some(if preview then PreviewFailure else DownloadFailure), None)
    case Answered(contentType, contentDisposition) =>
      if preview then Turn(page, sent, if contentType.None? then Some(PreviewFailure) else None, None)
      else
        match Disposition.PreviewPageFilename(contentDisposition)
        case None => Turn(page, sent, Some(DownloadFailure), None)
        case Some(name) => Turn(page, sent, Some(DownloadSuccess), Some(name))
  }

  /**
    The preview (`preview`) or download button: it sets the dialog's mode,
    then opens the dialog without a request for a file known to be private
    while no code is remembered, and otherwise requests with the remembered
    code. `infoPrivate` is `fileInfo?.is_private`: false until the info loaded.
   */
  function Click(p: Page, id: nat, preview: bool, infoPrivate: bool, answer: Answer): (t: Turn)
    ensures t.page.previewMode == preview
    ensures t.sent.None? <==> infoPrivate && !Truthy(p.savedCode)
    ensures t.sent.None? ==> t.page == Page(true, preview, p.savedCode) && t.toast.None?
    ensures t.sent.Some? ==> t == Attempt(p.(previewMode := preview), id, preview, None, answer)
  {
    var q := p.(previewMode := preview);
    if infoPrivate && !Truthy(p.savedCode) then Turn(q.(dialogOpen := true), None, None, None)
    else Attempt(q, id, preview, None, answer)
  }

  /** The dialog's rules: a code is required and must be exactly four characters long. */
  predicate DialogAccepts(input: string) {
    |input| == 4
  }

  /**
    `handleCodeSubmit`: a code the rules reject changes nothing; an accepted
    one is tried in the dialog's mode and the dialog closes (a 403 reopens it).
   */
  function SubmitCode(p: Page, id: nat, input: string, answer: Answer): (t: Turn)
    requires p.dialogOpen
    ensures t.sent.Some? <==> DialogAccepts(input)
    ensures !DialogAccepts(input) ==> t == Turn(p, None, None, None)
    ensures DialogAccepts(input) ==>
      t == Attempt(p.(dialogOpen := false), id, p.previewMode, Some(input), answer)
    ensures DialogAccepts(input) ==>
      t.page.savedCode == input && (t.page.dialogOpen <==> answer == FailedWith(Some(403)))
  {
    if !DialogAccepts(input) then Turn(p, None, None, None)
    else Attempt(p.(dialogOpen := false), id, p.previewMode, Some(input), answer)
  }

  /** Cancelling closes the dialog and keeps the mode. */
  function CancelDialog(p: Page): (p': Page)
    ensures !p'.dialogOpen && p'.previewMode == p.previewMode && p'.savedCode == p.savedCode
  {
    p.(dialogOpen := false)
  }

  /** The clear button, shown only while a code is remembered, forgets it. */
  function ClearCode(p: Page): (t: Turn)
    requires Truthy(p.savedCode)
    ensures !Truthy(t.page.savedCode) && t.sent.None? && t.toast == Some(CodeCleared)
    ensures t.page.dialogOpen == p.dialogOpen && t.page.previewMode == p.previewMode
  {
    Turn(p.(savedCode := ""), None, Some(CodeCleared), None)
  }

  /** A link carrying a code goes straight to the request with that code, even for a private file. */
  lemma QueryCodeSkipsDialog(id: nat, code: string, preview: bool, answer: Answer)
    requires Truthy(code)
    ensures var t := Click(Init(Some(code)), id, preview, true, answer);
      t.sent == Some(PageRequest(id, if preview then FilePreview else FileContent, Some(code)))
  {
  }

  /** A code the server refused stays remembered and is sent again by the next button press. */
  lemma RefusedCodeIsKept(p: Page, id: nat, input: string, preview: bool, infoPrivate: bool, next: Answer)
    requires p.dialogOpen && DialogAccepts(input)
    ensures var t := SubmitCode(p, id, input, FailedWith(Some(403)));
      t.page.dialogOpen && t.page.savedCode == input
      && Click(t.page, id, preview, infoPrivate, next).sent
         == Some(PageRequest(id, if preview then FilePreview else FileContent, Some(input)))
  {
  }

  /** After the code is cleared, a button on a private file opens the dialog again instead of requesting. */
  lemma ClearedCodeAsksAgain(p: Page, id: nat, preview: bool, answer: Answer)
    requires Truthy(p.savedCode)
    ensures var t := Click(ClearCode(p).page, id, preview, true, answer);
      t.sent.None? && t.page.dialogOpen
  {
  }
}

=== FILE: records.dfy ===
/**
  The persistent file row and the listing view the server sends to clients.
  Users are identified by their user name, which the user table keeps unique,
  so "same user id" and "same user name" coincide.
 */
module Records {
  import opened Wrappers

  type Username = string

  /** One row of the file table. `downloads` defaults to 0 and nothing in the core changes it. */
  datatype FileRecord = FileRecord(
    id: nat,
    filename: string,
    filepath: string,
    uploadTime: int,
    isPrivate: bool,
    downloadCode: Option<string>,
    fileType: Option<string>,
    downloads: nat,
    owner: Username)

  /**
    One entry of the file listing. The listing endpoint does not fill in the
    file type, size, download count or previewability, so those keep their
    schema defaults (none, none, 0, false).
   */
  datatype FileView = FileView(
    id: nat,
    filename: string,
    uploadTime: int,
    uploader: Username,
    isPrivate: bool,
    downloadCode: Option<string>,
    fileType: Option<string>,
    downloads: nat,
    canPreview: bool)

  /**
    The row invariant every upload establishes: a file is private exactly
    when it carries a download code, and a stored code is never empty.
   */
  predicate CodeMatchesVisibility(f: FileRecord) {
    (f.isPrivate <==> f.downloadCode.Some?) && (f.downloadCode.Some? ==> |f.downloadCode.value| > 0)
  }
}

=== FILE: requests.dfy ===
/**
  Request building on the client (services/api.js and the request helpers
  of utils/fileUtils.js): request targets with the optional download-code
  query, the bearer `Authorization` header of section 2.1 of RFC 6750, the
  multipart fields of an upload, and the name a download is saved under.
  The code is appended verbatim, without percent-encoding.
 */
module Requests {
  import opened Wrappers
  import opened Text
  import Disposition

  /** The axios instance's `baseURL`. */
  const ApiBase: string := "/api"
  const CodeQuery: string := "?download_code="
  const Authorization: string := "Authorization"
  const BearerPrefix: string := "Bearer "
  const AcceptLanguage: string := "Accept-Language"

  type Headers = map<string, string>

  datatype Request = Request(target: string, headers: Headers)

  /** `if (code) url += '?download_code=' + code`. */
  function WithCode(url: string, code: Option<string>): (r: string)
    ensures StartsWith(r, url)
    ensures Filled(code) ==> r[|url|..] == CodeQuery + code.value
    ensures !Filled(code) ==> r == url
  {
    if Filled(code) then url + CodeQuery + code.value else url
  }

  function IndexOf(s: string, c: char): (k: int)
    ensures -1 <= k < |s|
    ensures k == -1 <==> c !in s
    ensures k >= 0 ==> s[k] == c && c !in s[..k]
  {
    if |s| == 0 then -1
    else if s[0] == c then 0
    else
      var k := IndexOf(s[1..], c);
      assert s[1..] == s[1..][..|s| - 1];
      if k < 0 then -1
      else
        assert s[..k + 1] == [s[0]] + s[1..][..k];
        k + 1
  }

  /**
    Reading a request target back: the path up to the first `?`, and the
    code when the query is `download_code=` followed by it.
   */
  function ReadTarget(target: string): (r: (string, Option<string>))
  {
    var k := IndexOf(target, '?');
    if k < 0 then (target, None)
    else if StartsWith(target[k..], CodeQuery) then (target[..k], Some(target[k + |CodeQuery|..]))
    else (target[..k], None)
  }

  /** The target reads back as the path and the code, when one was appended; an empty code is never sent. */
  lemma {:induction false} TargetRoundTrip(path: string, code: Option<string>)
    requires '?' !in path
    ensures ReadTarget(WithCode(path, code)) == (path, if Filled(code) then code else None)
  {
    var t := WithCode(path, code);
    if Filled(code) {
      assert t == path + (CodeQuery + code.value);
      assert t[..|path|] == path;
      assert '?' !in t[..|path|];
      assert t[|path|] == '?';
      var k := IndexOf(t, '?');
      assert k == |path|;
      assert t[k..] == CodeQuery + code.value;
      assert t[k + |CodeQuery|..] == code.value;
    }
  }

  /** The request interceptor: sets the bearer header exactly when a token is stored, and touches nothing else. */
  function Intercept(headers: Headers, token: Option<string>): (r: Headers)
    ensures Filled(token) ==> Authorization in r && r[Authorization] == BearerPrefix + token.value
    ensures !Filled(token) ==> r == headers
    ensures r.Keys <= headers.Keys + {Authorization}
    ensures forall k :: k in headers && k != Authorization ==> k in r && r[k] == headers[k]
  {
    if Filled(token) then headers[Authorization := BearerPrefix + token.value] else headers
  }

  /** The credentials of a bearer `Authorization` value (section 2.1 of RFC 6750). */
  function BearerToken(headers: Headers): (token: Option<string>)
    ensures token.Some? ==> Authorization in headers && headers[Authorization] == BearerPrefix + token.value
  {
    if Authorization in headers && StartsWith(headers[Authorization], BearerPrefix)
    then
      var v := headers[Authorization];
      assert v == BearerPrefix + v[|BearerPrefix|..];
      Some(v[|BearerPrefix|..])
    else None
  }

  /** A server reading the bearer header gets back exactly the stored token, or nothing when none is stored. */
  lemma BearerRoundTrip(headers: Headers, token: Option<string>)
    requires Authorization !in headers
    ensures BearerToken(Intercept(headers, token)) == (if Filled(token) then token else None)
  {
    if Filled(token) {
      var v := BearerPrefix + token.value;
      assert v[|BearerPrefix|..] == token.value;
    }
  }

  /** The headers the hand-written requests build: `token ? { Authorization: 'Bearer ' + token } : {}`. */
  function AuthHeaders(token: Option<string>): Headers {
    if Filled(token) then map[Authorization := BearerPrefix + token.value] else map[]
  }

  /** The three file resources the client asks for. */
  datatype Resource = FileInfo | FileContent | FilePreview

  function ResourceSuffix(resource: Resource): string {
    match resource
    case FileInfo => "/info"
    case FileContent => ""
    case FilePreview => "/preview"
  }

  function ResourcePath(id: nat, resource: Resource): string {
    "/files/" + DecimalText(id) + ResourceSuffix(resource)
  }

  /** Paths are built from digits, letters and slashes only. */
  lemma PathHasNoQuery(id: nat, resource: Resource)
    ensures '?' !in ApiBase + ResourcePath(id, resource)
  {
    var d := DecimalText(id);
    assert '?' !in d;
    assert '?' !in ResourceSuffix(resource);
  }

  /** Prefixing the base URL commutes with appending the query. */
  lemma BaseThenQuery(base: string, path: string, code: Option<string>)
    ensures base + WithCode(path, code) == WithCode(base + path, code)
  {
    if Filled(code) {
      assert base + (path + CodeQuery + code.value) == base + path + CodeQuery + code.value;
    }
  }

  /** `fileAPI.getFileInfo`, `fileAPI.downloadFile` and `fileAPI.previewFile`, after the interceptor. */
  function ApiFileRequest(id: nat, resource: Resource, code: Option<string>, token: Option<string>): (r: Request)
    ensures ReadTarget(r.target) == (ApiBase + ResourcePath(id, resource), if Filled(code) then code else None)
    ensures BearerToken(r.headers) == (if Filled(token) then token else None)
    ensures r.headers.Keys <= {Authorization}
  {
    var path := ResourcePath(id, resource);
    PathHasNoQuery(id, resource);
    TargetRoundTrip(ApiBase + path, code);
    BaseThenQuery(ApiBase, path, code);
    BearerRoundTrip(map[], token);
    Request(ApiBase + WithCode(path, code), Intercept(map[], token))
  }

  /** fileUtils.js `fetchFileInfo`: the same target and headers as `fileAPI.getFileInfo`. */
  function FetchFileInfo(id: nat, code: Option<string>, token: Option<string>): Request {
    Request(WithCode(ApiBase + "/files/" + DecimalText(id) + "/info", code), AuthHeaders(token))
  }

  /** fileUtils.js `downloadFile`: the target of `fileAPI.downloadFile`, plus an `Accept-Language` header. */
  function UtilsDownloadRequest(id: nat, code: Option<string>, token: Option<string>): Request {
    Request(WithCode(ApiBase + "/files/" + DecimalText(id), code),
            map[AcceptLanguage := "zh-CN"] + AuthHeaders(token))
  }

  /** The hand-built requests of fileUtils.js agree with the API client's. */
  lemma {:induction false} UtilsRequestsMatchApi(id: nat, code: Option<string>, token: Option<string>)
    ensures FetchFileInfo(id, code, token) == ApiFileRequest(id, FileInfo, code, token)
    ensures UtilsDownloadRequest(id, code, token).target == ApiFileRequest(id, FileContent, code, token).target
    ensures var h := UtilsDownloadRequest(id, code, token).headers;
      h[AcceptLanguage] == "zh-CN" && BearerToken(h) == (if Filled(token) then token else None)
  {
    var d := DecimalText(id);
    assert ApiBase + ResourcePath(id, FileInfo) == ApiBase + "/files/" + d + "/info";
    assert ApiBase + ResourcePath(id, FileContent) == ApiBase + "/files/" + d;
    BaseThenQuery(ApiBase, ResourcePath(id, FileInfo), code);
    BaseThenQuery(ApiBase, ResourcePath(id, FileContent), code);
    var h := UtilsDownloadRequest(id, code, token).headers;
    assert AcceptLanguage != Authorization;
    if Filled(token) {
      assert h[Authorization] == BearerPrefix + token.value;
      assert (BearerPrefix + token.value)[|BearerPrefix|..] == token.value;
    }
  }

  /** fileUtils.js `downloadFile`: the caller's name when given, else the header's, else `download`. */
  function UtilsSavedName(filename: Option<string>, contentDisposition: Option<string>): (name: string)
    ensures Filled(filename) ==> name == filename.value
    ensures !Filled(filename) && !Filled(contentDisposition) ==> name == "download"
    ensures |name| > 0
  {
    if Filled(filename) then filename.value
    else
      var n := Disposition.ExtractFilename(contentDisposition, "download");
      ExtractedNameNonEmpty(contentDisposition, "download");
      n
  }

  /** `extractFilename` never produces an empty name when its default is not empty. */
  lemma ExtractedNameNonEmpty(header: Option<string>, defaultName: string)
    requires |defaultName| > 0
    ensures |Disposition.ExtractFilename(header, defaultName)| > 0
  {
  }

  /** One multipart field besides the file itself. */
  datatype FormField = FormField(name: string, value: string)

  /**
    `fileAPI.uploadFile`: `is_private=true` only for a private upload, and
    the code whenever it is truthy, even for a public upload.
   */
  function UploadFields(isPrivate: bool, code: Option<string>): (fields: seq<FormField>)
    ensures FormField("is_private", "true") in fields <==> isPrivate
    ensures forall c :: FormField("download_code", c) in fields <==> Filled(code) && c == code.value
    ensures |fields| <= 2
  {
    (if isPrivate then [FormField("is_private", "true")] else [])
    + (if Filled(code) then [FormField("download_code", code.value)] else [])
  }

  /** The value of the first field with the given name. */
  function FieldValue(fields: seq<FormField>, name: string): (v: Option<string>)
    ensures v.Some? ==> FormField(name, v.value) in fields
    ensures v.None? ==> forall f :: f in fields ==> f.name != name
  {
    if |fields| == 0 then None
    else if fields[0].name == name then Some(fields[0].value)
    else FieldValue(fields[1..], name)
  }

  /**
    How the upload endpoint reads the fields: `is_private: bool = Form(False)`
    is true for the value `true`, and `download_code: Optional[str] = Form(None)`
    is the value or none.
   */
  function ServerUploadParameters(fields: seq<FormField>): (bool, Option<string>) {
    (FieldValue(fields, "is_private") == Some("true"), FieldValue(fields, "download_code"))
  }

  /** The server receives the client's visibility, and the code exactly when it was truthy. */
  lemma UploadFieldsRoundTrip(isPrivate: bool, code: Option<string>)
    ensures ServerUploadParameters(UploadFields(isPrivate, code)) == (isPrivate, if Filled(code) then code else None)
  {
    var fields := UploadFields(isPrivate, code);
    if isPrivate && Filled(code) {
      assert fields[1..] == [FormField("download_code", code.value)];
    }
  }
}

=== FILE: server.dfy ===
/**
  The file endpoints of the backend (backend/main.py): download-code
  generation, upload with its extension allowlist and code assignment, the
  listing with code redaction and newest-first order, and the decision logic
  of download and delete. The database is a sequence of rows plus the next
  free id; the file system write and removal are left abstract.
 */
module Server {
  import opened Wrappers
  import opened Text
  import opened Records
  import opened Auth

  const Digits: string := "0123456789"

  /** The four random draws `random.choices` makes, each an index into `Digits`. */
  predicate ValidPicks(picks: seq<nat>) {
    |picks| == 4 && forall i :: 0 <= i < 4 ==> picks[i] < 10
  }

  /** A code made of exactly four decimal digits. */
  predicate IsFourDigitCode(code: string) {
    |code| == 4 && forall i :: 0 <= i < 4 ==> IsDigit(code[i])
  }

  /** `generate_download_code`, with the randomness supplied as `picks`. */
  function GenerateDownloadCode(picks: seq<nat>): (code: string)
    requires ValidPicks(picks)
    ensures IsFourDigitCode(code)
  {
    seq(4, i requires 0 <= i < 4 => Digits[picks[i]])
  }

  /** Every four-digit code is one the generator can produce. */
  lemma EveryFourDigitCodeGenerable(code: string) returns (picks: seq<nat>)
    requires IsFourDigitCode(code)
    ensures ValidPicks(picks) && GenerateDownloadCode(picks) == code
  {
    picks := seq(4, i requires 0 <= i < 4 => code[i] as int - '0' as int);
    assert forall i :: 0 <= i < 4 ==> Digits[picks[i]] == code[i];
  }

  /** Index of the last occurrence of `c` in `s`, or -1. */
  function LastIndexOf(s: string, c: char): (k: int)
    ensures -1 <= k < |s|
    ensures k >= 0 ==> s[k] == c
    ensures forall j :: k < j < |s| ==> s[j] != c
  {
    if |s| == 0 then -1
    else if s[|s| - 1] == c then |s| - 1
    else LastIndexOf(s[..|s| - 1], c)
  }

  /**
    `os.path.splitext` on POSIX paths: the extension starts at the last dot,
    provided that dot lies in the last path component and is preceded there
    by at least one character other than a dot (so `.bashrc` has none).
   */
  function SplitExt(p: string): (r: (string, string))
    ensures r.0 + r.1 == p
    ensures r.1 != [] ==> r.1[0] == '.' && forall j :: 1 <= j < |r.1| ==> r.1[j] != '.' && r.1[j] != '/'
    ensures r.1 != [] ==> exists j :: 0 <= j < |r.0| && r.0[j] != '.' && forall k :: j < k < |r.0| ==> r.0[k] != '/'
    ensures r.1 == [] ==>
      forall k :: 0 <= k < |p| && p[k] == '.' && (forall i :: k < i < |p| ==> p[i] != '/') ==>
        forall j :: 0 <= j < k && (forall i :: j <= i < k ==> p[i] != '/') ==> p[j] == '.'
  {
    var sep := LastIndexOf(p, '/');
    var dot := LastIndexOf(p, '.');
    if dot > sep && exists j :: sep < j < dot && p[j] != '.' then
      (p[..dot], p[dot..])
    else
      forall k, j | 0 <= k < |p| && p[k] == '.' && (forall i :: k < i < |p| ==> p[i] != '/')
                    && 0 <= j < k && (forall i :: j <= i < k ==> p[i] != '/')
        ensures p[j] == '.'
      {
        assert sep < j;
        assert k <= dot;
      }
      (p, [])
  }

  /** An extension as the allowlist writes them: a dot and then neither dots nor slashes. */
  predicate IsExtensionShaped(ext: string) {
    |ext| > 0 && ext[0] == '.' && forall j :: 1 <= j < |ext| ==> ext[j] != '.' && ext[j] != '/'
  }

  /**
    A name made of a root that ends in an ordinary character and an
    extension-shaped suffix splits into exactly those two parts.
   */
  lemma SplitExtFindsExtension(root: string, ext: string)
    requires |root| > 0 && root[|root| - 1] != '.' && root[|root| - 1] != '/'
    requires IsExtensionShaped(ext)
    ensures SplitExt(root + ext) == (root, ext)
  {
    var p := root + ext;
    var sep := LastIndexOf(p, '/');
    var dot := LastIndexOf(p, '.');
    assert p[|root|] == '.';
    assert forall i :: |root| < i < |p| ==> p[i] == ext[i - |root|];
    assert dot == |root|;
    assert p[|root| - 1] == root[|root| - 1];
    assert sep < |root| - 1;
    assert p[..dot] == root && p[dot..] == ext;
  }

  /**
    Every allowed extension is accepted behind any root that ends in an
    ordinary character: the allowlist check can pass.
   */
  lemma AllowedNamesPass(root: string, ext: string)
    requires |root| > 0 && root[|root| - 1] != '.' && root[|root| - 1] != '/'
    requires ext in AllowedExtensions
    ensures Extension(root + ext) == ext
  {
    assert IsExtensionShaped(ext) && forall i :: 0 <= i < |ext| ==> !IsAsciiUpper(ext[i]);
    SplitExtFindsExtension(root, ext);
    assert Lower(ext) == ext;
  }

  const AllowedExtensions: set<string> :=
    {".txt", ".pdf", ".doc", ".docx", ".xls", ".xlsx", ".jpg", ".jpeg", ".png", ".zip", ".rar"}

  /** The lower-cased extension the allowlist is checked against. */
  function Extension(filename: string): string {
    Lower(SplitExt(filename).1)
  }

  /** The database: the file rows in insertion order and the next autoincrement id. */
  datatype Store = Store(files: seq<FileRecord>, nextId: nat)

  /** Every row keeps the code/visibility invariant and ids are distinct and below `nextId`. */
  predicate StoreInvariant(store: Store) {
    && (forall i :: 0 <= i < |store.files| ==> CodeMatchesVisibility(store.files[i]))
    && (forall i :: 0 <= i < |store.files| ==> store.files[i].id < store.nextId)
    && (forall i, j :: 0 <= i < j < |store.files| ==> store.files[i].id != store.files[j].id)
  }

  /** The code an upload stores: the given one if non-empty, else a generated one; none for a public file. */
  function AssignedCode(isPrivate: bool, code: Option<string>, picks: seq<nat>): (stored: Option<string>)
    requires ValidPicks(picks)
    ensures isPrivate <==> stored.Some?
    ensures isPrivate && Filled(code) ==> stored == code
    ensures isPrivate && !Filled(code) ==> IsFourDigitCode(stored.value)
    ensures stored.Some? ==> |stored.value| > 0
  {
    if isPrivate then Some(if Filled(code) then code.value else GenerateDownloadCode(picks))
    else None
  }

  datatype UploadOutcome = UploadRejected(status: nat) | Uploaded(store: Store, responseCode: Option<string>)

  /**
    `upload_file`: a 400 before anything is written when the lower-cased
    extension is not allowed; otherwise one new row is appended, and the
    response carries the stored code exactly when the file is private.
   */
  function Upload(store: Store, filename: string, isPrivate: bool, code: Option<string>,
                  user: Username, now: int, picks: seq<nat>): (r: UploadOutcome)
    requires ValidPicks(picks)
    ensures r.UploadRejected? <==> Extension(filename) !in AllowedExtensions
    ensures r.UploadRejected? ==> r.status == 400
    ensures r.Uploaded? ==>
      && |r.store.files| == |store.files| + 1
      && r.store.files[..|store.files|] == store.files
      && var f := r.store.files[|store.files|];
         && f.id == store.nextId && f.filename == filename && f.owner == user
         && f.isPrivate == isPrivate && f.downloads == 0
         && f.downloadCode == AssignedCode(isPrivate, code, picks)
         && r.responseCode == f.downloadCode
  {
    if Extension(filename) !in AllowedExtensions then UploadRejected(400)
    else
      var stored := AssignedCode(isPrivate, code, picks);
      var f := FileRecord(store.nextId, filename, "uploads/" + filename, now, isPrivate,
                          if isPrivate then stored else None, None, 0, user);
      Uploaded(Store(store.files + [f], store.nextId + 1), if isPrivate then stored else None)
  }

  /**
    `upload_file` with the length check the share page's four-character code
    dialog presumes: a private upload whose given code is not exactly four
    characters is refused with a 400 before anything is written; every other
    upload is `Upload`'s.
   */
  function CheckedUpload(store: Store, filename: string, isPrivate: bool, code: Option<string>,
                         user: Username, now: int, picks: seq<nat>): (r: UploadOutcome)
    requires ValidPicks(picks)
    ensures r.UploadRejected? <==>
      Extension(filename) !in AllowedExtensions || (isPrivate && Filled(code) && |code.value| != 4)
    ensures r.UploadRejected? ==> r.status == 400
    ensures r.Uploaded? ==> r == Upload(store, filename, isPrivate, code, user, now, picks)
    ensures r.Uploaded? && isPrivate ==>
      var f := r.store.files[|store.files|];
      f.downloadCode.Some? && |f.downloadCode.value| == 4
  {
    if isPrivate && Filled(code) && |code.value| != 4 then UploadRejected(400)
    else Upload(store, filename, isPrivate, code, user, now, picks)
  }

  /** Upload keeps the store invariant: in particular every private file gets a non-empty code. */
  lemma UploadPreservesInvariant(store: Store, filename: string, isPrivate: bool, code: Option<string>,
                                 user: Username, now: int, picks: seq<nat>)
    requires ValidPicks(picks) && StoreInvariant(store)
    ensures var r := Upload(store, filename, isPrivate, code, user, now, picks);
            r.Uploaded? ==> StoreInvariant(r.store)
  {
    var r := Upload(store, filename, isPrivate, code, user, now, picks);
    if r.Uploaded? {
      var fs := r.store.files;
      var n := |store.files|;
      var f := fs[n];
      assert CodeMatchesVisibility(f);
      assert f.id == store.nextId;
      assert forall i :: 0 <= i < n ==> fs[i] == store.files[i];
      assert forall i :: 0 <= i < |fs| ==> CodeMatchesVisibility(fs[i]) && fs[i].id < r.store.nextId;
    }
  }

  predicate NewestFirst(vs: seq<FileView>) {
    forall i, j :: 0 <= i < j < |vs| ==> vs[i].uploadTime >= vs[j].uploadTime
  }

  function InsertByTime(v: FileView, vs: seq<FileView>): (r: seq<FileView>)
    requires NewestFirst(vs)
    ensures NewestFirst(r)
    ensures multiset(r) == multiset(vs) + multiset{v}
    ensures |r| > 0 && (r[0] == v || (|vs| > 0 && r[0] == vs[0]))
  {
    if |vs| == 0 || v.uploadTime >= vs[0].uploadTime then [v] + vs
    else
      var rest := InsertByTime(v, vs[1..]);
      assert vs == [vs[0]] + vs[1..];
      [vs[0]] + rest
  }

  /** Entries ordered by upload time, newest first (`order_by(upload_time.desc())`). */
  function SortNewestFirst(vs: seq<FileView>): (r: seq<FileView>)
    ensures NewestFirst(r)
    ensures multiset(r) == multiset(vs)
  {
    if |vs| == 0 then []
    else
      assert vs == [vs[0]] + vs[1..];
      InsertByTime(vs[0], SortNewestFirst(vs[1..]))
  }

  /** One listing entry: the code is revealed only to the file's uploader. */
  function View(f: FileRecord, caller: Username): FileView {
    FileView(f.id, f.filename, f.uploadTime, f.owner, f.isPrivate,
             if f.owner == caller then f.downloadCode else None, None, 0, false)
  }

  function Views(fs: seq<FileRecord>, caller: Username): (r: seq<FileView>)
    ensures |r| == |fs|
    ensures forall i :: 0 <= i < |fs| ==> r[i] == View(fs[i], caller)
  {
    seq(|fs|, i requires 0 <= i < |fs| => View(fs[i], caller))
  }

  /**
    `get_files`: every row exactly once (a permutation of the rows' views),
    newest first, each entry's code shown only when the caller uploaded it.
   */
  function ListFiles(store: Store, caller: Username): (r: seq<FileView>)
    ensures |r| == |store.files|
    ensures forall i, j :: 0 <= i < j < |r| ==> r[i].uploadTime >= r[j].uploadTime
    ensures forall i :: 0 <= i < |r| && r[i].uploader != caller ==> r[i].downloadCode.None?
    ensures multiset(r) == multiset(Views(store.files, caller))
  {
    var vs := Views(store.files, caller);
    var r := SortNewestFirst(vs);
    assert |r| == |multiset(r)| == |vs|;
    forall i | 0 <= i < |r| && r[i].uploader != caller
      ensures r[i].downloadCode.None?
    {
      assert r[i] in multiset(vs);
    }
    r
  }

  /** Under the store invariant, the uploader sees a code on an entry exactly when it is private. */
  lemma OwnerSeesCodeIffPrivate(store: Store, caller: Username, i: nat)
    requires StoreInvariant(store)
    requires i < |ListFiles(store, caller)|
    ensures var v := ListFiles(store, caller)[i];
            v.uploader == caller ==> (v.downloadCode.Some? <==> v.isPrivate) && (v.downloadCode.Some? ==> |v.downloadCode.value| > 0)
  {
    var r := ListFiles(store, caller);
    var vs := Views(store.files, caller);
    assert r[i] in multiset(r);
    assert r[i] in multiset(vs);
    var k :| 0 <= k < |vs| && vs[k] == r[i];
    assert CodeMatchesVisibility(store.files[k]);
  }

  /** Position of the first row with the given id, or -1. */
  function IndexOfId(fs: seq<FileRecord>, id: nat): (k: int)
    ensures -1 <= k < |fs|
    ensures k >= 0 ==> fs[k].id == id
    ensures forall j :: 0 <= j < |fs| && (k < 0 || j < k) ==> fs[j].id != id
  {
    if |fs| == 0 then -1
    else if fs[0].id == id then 0
    else
      var k := IndexOfId(fs[1..], id);
      if k < 0 then -1 else k + 1
  }

  /** The first row with the given id (`.filter(id == file_id).first()`). */
  function FindFile(fs: seq<FileRecord>, id: nat): (r: Option<FileRecord>)
    ensures r.None? <==> forall i :: 0 <= i < |fs| ==> fs[i].id != id
    ensures r.Some? ==> r.value in fs && r.value.id == id
  {
    var k := IndexOfId(fs, id);
    if k < 0 then None else Some(fs[k])
  }

  datatype DownloadOutcome = DownloadDenied(status: nat) | Served(file: FileRecord)

  /**
    `download_file` for a signed-in caller: 404 for an unknown id before any
    access check; then the inline rule, which grants exactly when
    `CheckFileAccess` from the session layer does.
   */
  function DownloadFile(store: Store, id: nat, code: Option<string>, caller: Username): (r: DownloadOutcome)
    ensures FindFile(store.files, id).None? <==> r == DownloadDenied(404)
    ensures FindFile(store.files, id).Some? ==>
      var f := FindFile(store.files, id).value;
      (r == Served(f) <==> CheckFileAccess(Some(caller), f, code) == Allowed)
      && (r != Served(f) ==> r == DownloadDenied(403))
  {
    match FindFile(store.files, id)
    case None => DownloadDenied(404)
    case Some(f) =>
      if f.isPrivate && f.owner != caller && (!Filled(code) || code != f.downloadCode) then DownloadDenied(403)
      else Served(f)
  }

  /** The rows with the first row of the given id removed, the others kept in order. */
  function RemoveFirst(fs: seq<FileRecord>, id: nat): (r: seq<FileRecord>)
    ensures FindFile(fs, id).None? ==> r == fs
    ensures FindFile(fs, id).Some? ==>
      var k := IndexOfId(fs, id);
      |r| == |fs| - 1 && forall i :: 0 <= i < |r| ==> r[i] == (if i < k then fs[i] else fs[i + 1])
    ensures FindFile(fs, id).Some? ==> multiset(r) + multiset{FindFile(fs, id).value} == multiset(fs)
  {
    var k := IndexOfId(fs, id);
    if k < 0 then fs
    else
      assert fs == fs[..k] + [fs[k]] + fs[k + 1..];
      fs[..k] + fs[k + 1..]
  }

  datatype DeleteOutcome = DeleteDenied(status: nat) | Deleted(store: Store)

  /**
    `delete_file` for a signed-in caller: 404 if absent, 403 unless the caller
    uploaded it; otherwise the row goes, whether or not removing the stored
    bytes (`removed`) succeeded.
   */
  function DeleteFile(store: Store, id: nat, caller: Username, removed: bool): (r: DeleteOutcome)
    ensures FindFile(store.files, id).None? <==> r == DeleteDenied(404)
    ensures FindFile(store.files, id).Some? ==>
      var f := FindFile(store.files, id).value;
      (r.Deleted? <==> CheckFileManagement(Some(caller), f) == Allowed)
      && (!r.Deleted? ==> r == DeleteDenied(403))
      && (r.Deleted? ==> multiset(r.store.files) + multiset{f} == multiset(store.files))
  {
    match FindFile(store.files, id)
    case None => DeleteDenied(404)
    case Some(f) =>
      if f.owner != caller then DeleteDenied(403)
      else Deleted(Store(RemoveFirst(store.files, id), store.nextId))
  }

  /** The outcome of a delete does not depend on whether removing the stored bytes failed. */
  lemma DeleteIgnoresRemovalFailure(store: Store, id: nat, caller: Username)
    ensures DeleteFile(store, id, caller, true) == DeleteFile(store, id, caller, false)
  {
  }

  /** With distinct ids, a delete leaves no row with that id behind and keeps the invariant. */
  lemma DeleteRemovesTheFile(store: Store, id: nat, caller: Username, removed: bool)
    requires StoreInvariant(store)
    ensures var r := DeleteFile(store, id, caller, removed);
            r.Deleted? ==> FindFile(r.store.files, id).None? && StoreInvariant(r.store)
  {
    var r := DeleteFile(store, id, caller, removed);
    if r.Deleted? {
      var fs := store.files;
      var k := IndexOfId(fs, id);
      var rs := r.store.files;
      assert rs == RemoveFirst(fs, id);
      assert forall i :: 0 <= i < |rs| ==> rs[i] == fs[if i < k then i else i + 1];
    }
  }

  /** An endpoint's result after authentication: 401 comes before anything the handler decides. */
  datatype Authenticated<T> = NotAuthenticated | Handled(result: T)

  /**
    The download endpoint as a whole: the bearer token is resolved first
    (a missing or rejected token is a 401), then `DownloadFile` decides.
   */
  function DownloadEndpoint(sessions: Sessions, token: Option<Token>, decode: Token -> Option<Claims>,
                            store: Store, id: nat, code: Option<string>): (r: Authenticated<DownloadOutcome>)
    ensures r.NotAuthenticated? <==> token.None? || GetCurrentUser(sessions, token.value, decode).Unauthorized?
    ensures r.Handled? ==> r.result == DownloadFile(store, id, code, GetCurrentUser(sessions, token.value, decode).user)
  {
    if token.None? then NotAuthenticated
    else match GetCurrentUser(sessions, token.value, decode)
      case Unauthorized => NotAuthenticated
      case Authenticated(u) => Handled(DownloadFile(store, id, code, u))
  }
}

=== FILE: text.dfy ===
/**
  String helpers shared by every other module: the JavaScript and Python
  string operations the source relies on (`startsWith`, `includes`,
  `toLowerCase`/`lower`, `trim`, number-to-string), stated once.
  Strings are sequences of Unicode scalar values.
 */
module Text {
  import opened Wrappers

  /** JavaScript truthiness of a string: only the empty string is falsy. */
  predicate Truthy(s: string) {
    |s| > 0
  }

  /** Truthiness of an optional string (JavaScript `null`/`undefined`, Python `None`): present and non-empty. */
  predicate Filled(o: Option<string>) {
    o.Some? && Truthy(o.value)
  }

  /** `s.startsWith(p)`. */
  predicate StartsWith(s: string, p: string) {
    |p| <= |s| && s[..|p|] == p
  }

  /** `s.includes(t)`: `t` occurs in `s` at some position. */
  predicate Contains(s: string, t: string)
    decreases |s|
  {
    StartsWith(s, t) || (|s| > 0 && Contains(s[1..], t))
  }

  /** Witness form of `Contains`: an occurrence at position `i`. */
  lemma {:induction false} ContainsAt(s: string, t: string, i: nat)
    requires i + |t| <= |s| && s[i..i + |t|] == t
    ensures Contains(s, t)
    decreases i
  {
    if i > 0 {
      assert s[1..][i - 1..i - 1 + |t|] == s[i..i + |t|];
      ContainsAt(s[1..], t, i - 1);
    }
  }

  /** Every occurrence found by `Contains` sits at some position. */
  lemma {:induction false} ContainsHasPosition(s: string, t: string) returns (i: nat)
    requires Contains(s, t)
    ensures i + |t| <= |s| && s[i..i + |t|] == t
    decreases |s|
  {
    if StartsWith(s, t) {
      i := 0;
    } else {
      var j := ContainsHasPosition(s[1..], t);
      assert s[1..][j..j + |t|] == s[j + 1..j + 1 + |t|];
      i := j + 1;
    }
  }

  predicate IsAsciiUpper(c: char) {
    'A' <= c <= 'Z'
  }

  /** ASCII lower-casing of one character; every other character is kept. */
  function AsciiLowerChar(c: char): (r: char)
    ensures IsAsciiUpper(c) ==> r as int == c as int + 32
    ensures !IsAsciiUpper(c) ==> r == c
  {
    if IsAsciiUpper(c) then (c as int + 32) as char else c
  }

  /** ASCII lower-casing of a string, character by character. */
  function Lower(s: string): (r: string)
    ensures |r| == |s|
    ensures forall i :: 0 <= i < |s| ==> r[i] == AsciiLowerChar(s[i])
  {
    seq(|s|, i requires 0 <= i < |s| => AsciiLowerChar(s[i]))
  }

  /** Two strings are equal up to ASCII case. */
  predicate EqualIgnoringAsciiCase(a: string, b: string) {
    Lower(a) == Lower(b)
  }

  predicate IsDigit(c: char) {
    '0' <= c <= '9'
  }

  /**
    The characters JavaScript's `String.prototype.trim` removes: the
    WhiteSpace and LineTerminator productions of ECMA-262 (section 12.2 and
    12.3), that is TAB, VT, FF, SP, NBSP, ZWNBSP, the space separators of
    category Zs, LF, CR, LINE SEPARATOR and PARAGRAPH SEPARATOR.
   */
  predicate IsJsWhitespace(c: char) {
    || c == '\U{9}' || c == '\U{B}' || c == '\U{C}' || c == ' '
    || c == '\U{A0}' || c == '\U{FEFF}' || c == '\U{1680}'
    || ('\U{2000}' <= c <= '\U{200A}') || c == '\U{202F}' || c == '\U{205F}' || c == '\U{3000}'
    || c == '\n' || c == '\r' || c == '\U{2028}' || c == '\U{2029}'
  }

  /** Drops leading JavaScript whitespace. */
  function TrimStart(s: string): (r: string)
    ensures |r| <= |s| && r == s[|s| - |r|..]
    ensures |r| > 0 ==> !IsJsWhitespace(r[0])
    ensures forall i :: 0 <= i < |s| - |r| ==> IsJsWhitespace(s[i])
  {
    if |s| > 0 && IsJsWhitespace(s[0]) then TrimStart(s[1..]) else s
  }

  /** Drops trailing JavaScript whitespace. */
  function TrimEnd(s: string): (r: string)
    ensures |r| <= |s| && r == s[..|r|]
    ensures |r| > 0 ==> !IsJsWhitespace(r[|r| - 1])
    ensures forall i :: |r| <= i < |s| ==> IsJsWhitespace(s[i])
  {
    if |s| > 0 && IsJsWhitespace(s[|s| - 1]) then TrimEnd(s[..|s| - 1]) else s
  }

  /** `s.trim()`. */
  function Trim(s: string): string {
    TrimEnd(TrimStart(s))
  }

  function DigitChar(d: nat): (c: char)
    requires d < 10
    ensures IsDigit(c) && c as int - '0' as int == d
  {
    ('0' as int + d) as char
  }

  /** Decimal rendering of a natural number, as a template literal renders an integer id. */
  function DecimalText(n: nat): (r: string)
    ensures |r| > 0
    ensures forall i :: 0 <= i < |r| ==> IsDigit(r[i])
    decreases n
  {
    if n < 10 then [DigitChar(n)] else DecimalText(n / 10) + [DigitChar(n % 10)]
  }

  function DigitValue(c: char): nat
    requires IsDigit(c)
  {
    c as int - '0' as int
  }

  /** Value of a non-empty string of decimal digits. */
  function DecimalValue(s: string): nat
    requires forall i :: 0 <= i < |s| ==> IsDigit(s[i])
    decreases |s|
  {
    if |s| == 0 then 0 else 10 * DecimalValue(s[..|s| - 1]) + DigitValue(s[|s| - 1])
  }

  /** Reading a rendered number back gives the number: the rendering is injective. */
  lemma {:induction false} DecimalRoundTrip(n: nat)
    ensures DecimalValue(DecimalText(n)) == n
    decreases n
  {
    if n >= 10 {
      var r := DecimalText(n);
      assert r[..|r| - 1] == DecimalText(n / 10);
      DecimalRoundTrip(n / 10);
    }
  }
}

=== FILE: wrappers.dfy ===
/** Optional values, used wherever the source has `None`, `null` or `undefined`. */
module Wrappers {

  datatype Option<+T> = None | Some(value: T) {

    /** The wrapped value, or `default` when there is none. */
    function GetOr(default: T): T {
      match this
      case Some(v) => v
      case None => default
    }
  }
}
